=== FILE: README.md ===
# Gauche bignum engine in Dafny

This project models the word-level exact-integer engine of Gauche,
`src/bignum.c`. A bignum is a sign in {-1, 0, +1} plus a little-endian
sequence of unsigned machine words. The model uses `Bignum(sign, words)` with
`words: seq<nat>` and every word below `BASE = 2^64`. One function,
`Magnitude.Val(ws)`, which is the sum of `ws[i] * BASE^i`, gives the value
of a magnitude. `Bignums.SignedValue` is that value times the sign. Every
contract is stated against these two.

The platform is LP64:

- `WORD_BITS = 64` and `HALF_BITS = 32`.
- `SCM_ULONG_MAX = 2^64 - 1`.
- `LONG_MIN = -2^63` and `LONG_MAX = 2^63 - 1`.
- A C `int` has 32 bits.
- Small integers lie in `[SMALL_INT_MIN, SMALL_INT_MAX] = [-2^61, 2^61 - 1]`. These are the usual values for two tag bits on a 64-bit word. No property depends on the exact values.

C arithmetic on `u_long` is written out:

- A sum or difference wraps with `% BASE`.
- `w << n` is `(w * 2^n) % BASE`, and `w >> n` is `w / 2^n`.
- An OR of words whose bits do not overlap is written as `+`.
- Negating `LONG_MIN` wraps in two's complement.

Modules:

- `Words` (`words.dfy`): the platform constants and the per-word primitives: UADD, USUB, and the portable half-word multiply UMUL.
- `Magnitude` (`magnitude.dfy`): `Val` and the lemmas about it, for concatenation, bounds and zero top words.
- `Bignums` (`bignum.dfy`): construction from a `long`, copy, normalization to a small integer, conversion back to `long`, and negation.
- `Additive` (`additive.dfy`):
  - the conservative result size;
  - the carry and borrow loops;
  - the two's-complement fixup;
  - `bignum_add` and `bignum_sub`;
  - the scalar `bignum_add_si`;
  - the normalizing entry points.
- `Shifts` (`shift.dfy`): the right and left shifts, following the contracts in their comments.
- `Fold` (`fold.dfy`): the integer path of `Scm_BignumAddN` and `Scm_BignumSubN`.

The word buffers are built by loops that append to a sequence. An in-place
update is modelled as a fresh sequence of the requested length.

Where the code and its documented behaviour differ, the model follows the code:

- Normalization keeps a sign-0 buffer whose upper words are not all zero.
- Normalization returns a size-0 buffer as it is.
- `LONG_MIN` is built as the two words `[0, 1]`.

Each of these is stated in a contract below.

## Model

| member | source | states |
|---|---|---|
| Words.UAdd | src/bignum.c:165-167 | The word is x + y + c wrapped to 64 bits. The carry that UADD recomputes from the wrapped word is 1 exactly when x + y + c reaches BASE, so word + carry * BASE == x + y + c. |
| Words.USub | src/bignum.c:169-171 | The word is x - y - c wrapped to 64 bits. The recomputed borrow is 1 exactly when x < y + c, so word - borrow * BASE == x - y - c. |
| Words.HalfSplit | src/bignum.c:37-39 | HI and LO of a word are both below 2^32, and the word is HI * 2^32 + LO. |
| Words.Recombine | src/bignum.c:434-441 | Adding the middle partial products into (hi, lo) with the two carry corrections gives two words whose double-width value is hi0 * BASE + (t1 + t2) * 2^32 + lo0. |
| Words.UMul | src/bignum.c:428-442 | For any two words x and y, UMUL gives words hi and lo with hi * BASE + lo == x * y. |
| Bignums.MakeBignumFromSI | src/bignum.c:53-71 | Every long other than LONG_MIN becomes one word whose signed value is v. LONG_MIN becomes sign -1 with words [0, 1]. The sign is never 0, and it is +1 for v >= 0. |
| Bignums.MakeBignumFromSILongMin | src/bignum.c:56-60 | The two-word LONG_MIN buffer denotes -2^64, not LONG_MIN. |
| Bignums.MakeBignumFromLong | src/bignum.c:53-71 | Construction with \|LONG_MIN\| = 2^63 held in one word. The result is one trimmed word whose signed value is v for every long. Its sign is +1 exactly when v >= 0. |
| Bignums.BignumCopy | src/bignum.c:73-80 | The copy has the same sign and the same words, and therefore the same signed value. |
| Bignums.Significant | src/bignum.c:88-92 | The size kept by the top-down scan is at least 1. The kept prefix is trimmed, and every word above it is zero. |
| Bignums.NormalizeBignum | src/bignum.c:85-106 | The result has the same signed value. A buffer with a nonzero sign becomes a small integer exactly when it has at least one word and its value fits the small range. A sign-0 buffer becomes 0 exactly when its upper words are all zero. A kept buffer has the same sign, is a prefix of the input, and is trimmed (size 1 or a nonzero top word). Every word it drops is zero, so a sign-0 buffer keeps up to its highest nonzero word. |
| Bignums.NormalizeKeeps | src/bignum.c:94-104 | A nonzero-signed buffer that escapes the small-integer branches has a value outside the small range. |
| Bignums.NormalizeIdempotent | src/bignum.c:85-106 | Normalizing a kept bignum again returns it unchanged. |
| Bignums.AsLong | src/bignum.c:111 | `(long)` on a word reinterprets it in two's complement: a non-negative result is the word, and a negative one is the word minus BASE. |
| Bignums.NegateLong | src/bignum.c:117 | Negating a long is exact except at LONG_MIN, which wraps back to LONG_MIN. |
| Bignums.BignumToSI | src/bignum.c:108-119 | As written, the result depends on values[0] alone, plus values[1] when a negative input's low word is 0. A non-negative sign gives values[0] clamped to LONG_MAX. A negative sign gives -values[0] up to 2^63. Above 2^63 it gives the positive BASE - values[0]. The negative [0, nonzero] pattern gives LONG_MIN. So the result is the clamped value for one-word non-negative inputs, one-word negative inputs up to 2^63, and the LONG_MIN pattern. |
| Bignums.MakeBignumFromSIRoundTrip | src/bignum.c:108-119 | Converting the bignum built from any long v back with BignumToSI gives v, LONG_MIN included. |
| Bignums.BignumToSIMissesClip | src/bignum.c:108-112 | The two-word +[5, 1] exceeds LONG_MAX but converts to 5. The negative one-word 2^63 + 1 is below LONG_MIN but converts to LONG_MAX. |
| Bignums.BignumToSISaturating | src/bignum.c:108-119 | Corrected conversion: for every trimmed bignum, the result is its signed value clamped to [LONG_MIN, LONG_MAX]. |
| Bignums.MakeBignumFromLongRoundTrip | src/bignum.c:108-119 | The corrected construction and conversion round-trip every long. |
| Bignums.BignumNegate | src/bignum.c:140-145 | The result denotes minus the input. A kept result carries the flipped sign. |
| Additive.SafeSizeForAdd | src/bignum.c:150-163 | The size is the larger operand size, or one more. The extra word is added exactly for equal sizes or an all-ones top word on the longer operand. \|x\| + \|y\| is always below BASE^size. |
| Additive.SafeSizeBound | src/bignum.c:150-163 | A sum of magnitudes fits one word more than the longer size. When the sizes differ and the longer top word is not all ones, it fits the longer size. |
| Additive.FetchAsWritten | src/bignum.c:195-212 | The operand read at pass i, with the countdown at size - i. It is a real word while i < size and a zero when the countdown is exactly 0. Once the countdown has gone below zero, because i exceeds the size, it is a read past the end. |
| Additive.AddIntReadsPastShorterOperand | src/bignum.c:195-212 | For x = +[2^62] and y = +[1, 2, 3], the safe size is 3, and pass 2 of the as-written add loop reads past the end of x. |
| Additive.SubIntReadsPastShorterOperand | src/bignum.c:229-247 | For x = +[1, 2, 3] minus y = +[2^62], the safe size is 3, and pass 2 of the as-written borrow loop reads past the end of y. |
| Additive.AddInt | src/bignum.c:188-216 | For operand sizes up to rsize, the result has rsize words and denotes (\|x\| + \|y\|) mod BASE^rsize. The result is exact when the sum fits. |
| Additive.SubLoop | src/bignum.c:229-247 | The borrow loop leaves words with Val == \|x\| - \|y\| + borrow * BASE^rsize. The final borrow is 1 exactly when \|x\| < \|y\|. |
| Additive.TwosComplement | src/bignum.c:174-184 | The complement-and-increment leaves BASE^n - Val(ws) with the final carry. The carry is 0 exactly when the input is nonzero, which is the condition of the SCM_ASSERT. |
| Additive.SubInt | src/bignum.c:220-253 | The result magnitude is \|\|x\| - \|y\|\|. The sign is kept when \|x\| >= \|y\| and flipped when \|y\| > \|x\|. |
| Additive.BignumAdd | src/bignum.c:256-267 | For operands with nonzero signs, the result has SafeSizeForAdd words and signed value x + y. Equal signs keep x's sign. Different signs keep x's sign exactly when \|x\| >= \|y\|, so a zero sum has x's sign. |
| Additive.BignumSub | src/bignum.c:270-281 | For operands with nonzero signs, the result has SafeSizeForAdd words and signed value x - y. Different signs keep x's sign. Equal signs keep x's sign exactly when \|x\| >= \|y\|, so a zero difference has x's sign. |
| Additive.BignumAddSI | src/bignum.c:284-308 | Corrected scalar add, with \|y\| held in a full word, the top word written and a borrow fixed up. y == 0 returns x. Otherwise the result has one more word and signed value x + y. |
| Additive.IntOfLong | src/bignum.c:288 | Storing a long into an `int` gives the value in the 32-bit signed range that is congruent to the long modulo 2^32. |
| Additive.YabsWord | src/bignum.c:288 | The word the loops add: \|y\| mod 2^32 when that is below 2^31, and otherwise that residue sign-extended to an unsigned word. |
| Additive.YabsWordSmall | src/bignum.c:288 | When \|y\| < 2^31, yabs is exactly \|y\|. |
| Additive.YabsWordTruncates | src/bignum.c:288 | For y = 2^32, yabs is 0: the scalar is lost. |
| Additive.BignumAddSIAsWritten | src/bignum.c:284-308 | As written: y == 0 returns x. Otherwise the sign is copied, the low \|x\|.size words hold (\|x\| ± yabs) mod BASE^size, and the top word keeps its stale value. |
| Additive.BignumAddSIAsWrittenDropsCarry | src/bignum.c:296-300 | Adding 1 to +[2^64 - 1] does not give 2^64 whatever the stale top word is, unless that word happens to be 1. |
| Additive.BignumAddSIAsWrittenMissesFixup | src/bignum.c:301-306 | Adding -2 to the unnormalized +[1] does not give -1: the borrow is never fixed up. Such a buffer reaches `bignum_add_si` only as a `Scm_BignumAddN` accumulator, for example +[2^62 + 1] + -[2^62]. |
| Additive.AddSIAsWrittenBorrowsUnfixed | src/bignum.c:301-306 | Through Scm_BignumAddSI, +[2^62] plus -2^31 with a zero stale word gives 2^62 + 2^31. The sign-extended yabs borrows, and the borrow is never fixed up. |
| Additive.Add | src/bignum.c:310-313 | Scm_BignumAdd returns x + y, as a small integer exactly when the sum fits the small range. |
| Additive.Sub | src/bignum.c:315-318 | Scm_BignumSub returns x - y, as a small integer exactly when the difference fits the small range. |
| Additive.AddSI | src/bignum.c:320-323 | Scm_BignumAddSI over the corrected scalar add returns x + y for every long y, as a small integer exactly when it fits. |
| Additive.AddSIAsWritten | src/bignum.c:320-323 | Scm_BignumAddSI over the as-written bignum_add_si returns x for y = 0. Otherwise it returns the signed value of the wrapped low words plus the stale top word, as a small integer exactly when that fits. |
| Additive.AddSIAsWrittenLosesScalar | src/bignum.c:288 | As written, +[2^62] plus 2^32 with a zero stale word returns 2^62, not 2^62 + 2^32. |
| Additive.SubSI | src/bignum.c:325-328 | Scm_BignumSubSI with `-y` taken exactly returns x - y for every long y, LONG_MIN included, as a small integer exactly when it fits. |
| Additive.SubSIAsWritten | src/bignum.c:325-328 | As written, Scm_BignumSubSI is the as-written add of `-y`. Negating LONG_MIN wraps to LONG_MIN. |
| Additive.SubSIAsWrittenAtLongMin | src/bignum.c:327 | As written, +[2^62] minus LONG_MIN with a zero stale word returns 2^62, not 2^62 + 2^63. |
| Shifts.BitsDownValue | src/bignum.c:389-393 | Moving every word down by 0 < b < 64 bits, with the low bits of the next word on top, gives words whose value is Val / 2^b. |
| Shifts.BitsUpValue | src/bignum.c:410-414 | Moving every word up by 0 < b < 64 bits, with the high bits of the word below at the bottom and one word more on top, gives words whose value is Val * 2^b + cin. |
| Shifts.DownWordsValue | src/bignum.c:389-393 | The words moved down by any bit count below 64 are words, and they denote Val / 2^b. |
| Shifts.UpWordsValue | src/bignum.c:410-414 | The words moved up by any bit count below 64 are words, and they denote Val * 2^b. |
| Shifts.ShiftWordsDown | src/bignum.c:389-393 | The right-shift word loop, going low to high so that it may run in place, produces exactly the words moved down by b bits. |
| Shifts.ShiftWordsUp | src/bignum.c:410-414 | The left-shift word loop, going high to low so that it may run in place, produces exactly the words moved up by b bits, including the top word. |
| Shifts.ShiftedRightValue | src/bignum.c:378-399 | The words of bx >> amount denote Val(bx) / 2^amount. |
| Shifts.ShiftedLeftValue | src/bignum.c:401-419 | The words of bx << amount denote Val(bx) * 2^amount. |
| Shifts.ShiftRoundTrip | src/bignum.c:378-419 | A right shift undoes a left shift by the same amount. |
| Shifts.RShift | src/bignum.c:380-399 | The right shift copies the sign and does not normalize. The result has \|bx\| - amount/64 words, or none when amount/64 reaches the size, and it denotes Val(bx) / 2^amount. |
| Shifts.LShift | src/bignum.c:403-419 | The left shift copies the sign and does not normalize. The result has \|bx\| + amount/64 words, plus one when amount % 64 != 0, and it denotes Val(bx) * 2^amount. |
| Shifts.RShiftAsWrittenLeavesBuffer | src/bignum.c:390 | The right-shift loop as written steps its index down under an upper-bound guard, so the guard never fails and pass nwords + 1 reads index -1. |
| Shifts.LShiftAsWrittenLeavesBuffer | src/bignum.c:411 | The left-shift loop as written steps its index up under a lower-bound guard, so the guard never fails and pass 1 reads index size. |
| Shifts.LShiftAsWrittenTooShort | src/bignum.c:416 | With the size the source records, no buffer can hold the one-word 2^63 shifted left by one bit. |
| Fold.BignumAddN | src/bignum.c:330-350 | This is the left fold of x + args. If every argument is exact, the normalized result is x plus their sum. At the first inexact argument, the accumulator (x plus the arguments before it) and the rest of the list are handed on. At the first non-number argument, the fold stops with that argument as the error. |
| Fold.BignumSubN | src/bignum.c:352-372 | This is the left fold of x - args, with the same three outcomes, subtracting each exact argument. |

## Left out

- `Scm_BignumToDouble` (src/bignum.c:121-137) is left out: it is floating point through `ldexp` and approximate by design.
- `Scm_DumpBignum` (src/bignum.c:464-474) and the `fprintf` debug line in `bignum_sub_int` (src/bignum.c:228) are left out: both are port and stderr output.
- `bignum_mul_word` (src/bignum.c:445-458) is left out. Its body computes partial sums that it never stores, and it returns `NULL`, so there is no behaviour beyond UMUL to model.
- In `Scm_BignumAddN` and `Scm_BignumSubN`, two runtime calls that the model cannot see become outcomes of `Fold.Outcome`:
  - The promotion to `Scm_Add` or `Scm_Subtract`, and the flonum built by `Scm_BignumToDouble`, become `Promote`, which carries the accumulator and the remaining arguments.
  - `Scm_Error` becomes `TypeError`.
- `make_bignum` allocation, class tagging, `SCM_NEW_ATOMIC2` and garbage collection are left out. A buffer is a fresh sequence.
- The source's loops shift a word by `WORD_BITS` when `nbits == 0`. A shift count equal to the word width is undefined in C, so the model branches on `nbits == 0` and copies the words.
- Shifts.RShift: when amount / 64 reaches the size, the source sets the size to 0 but leaves `br->sign` as the caller set it. The model copies the sign of `bx` in that branch too.
- Shifts.RShift: the `int amount` is modelled as a `nat`, which is the range the comments allow.
- Shifts.LShift: the source writes into a caller-supplied buffer `br` that may be `bx` itself. The model returns a fresh word sequence, built from the top down as an in-place update would require.
- Shifts.LShift: the source never writes the low `nwords` words of `br`, so they keep whatever the buffer held. The model sets them to zero, which the value `bx * 2^amount` promised by the comment requires.
- Additive.BignumAddSIAsWritten: the stale top word is a parameter. It is whatever `make_bignum` left in the unused word, which the model cannot see.
- Fold.BignumAddN: small integers go through the corrected `Additive.BignumAddSI`, not the as-written one, so the fold states the intended sum.
- Fold.BignumSubN: small integers go through the corrected `Additive.BignumAddSI`, not the as-written one, so the fold states the intended difference.
- Additive.AddSI: it normalizes the corrected `Additive.BignumAddSI`, not the as-written `bignum_add_si`, so its x + y does not hold of the source. `Additive.AddSIAsWritten` states what the source returns.
- Additive.SubSI: it negates y exactly and uses the corrected `Additive.BignumAddSI`. The source's `-y` wraps at LONG_MIN and goes through the as-written add, which `Additive.SubSIAsWritten` states.
- Additive.SubLoop: the borrow loop reads a word beyond an operand as 0. The source's countdown reads past the shorter operand instead, which `Additive.SubIntReadsPastShorterOperand` shows.
- Additive.SubInt: it runs the corrected borrow loop `Additive.SubLoop`, so its distance assumes words beyond an operand read as 0. The source reads past the shorter operand.
- Additive.BignumAdd: it runs the corrected add and borrow loops, so its x + y assumes words beyond an operand read as 0. The source reads past the shorter operand.
- Additive.BignumSub: it runs the corrected add and borrow loops, so its x - y assumes words beyond an operand read as 0. The source reads past the shorter operand.
- Additive.Add: it normalizes `Additive.BignumAdd` and inherits its corrected operand reads.
- Additive.Sub: it normalizes `Additive.BignumSub` and inherits its corrected operand reads.
- Fold.BignumAddN: bignum arguments go through the corrected `Additive.BignumAdd`, not the as-written loops.
- Fold.BignumSubN: bignum arguments go through the corrected `Additive.BignumSub`, not the as-written loops.
- Additive.AddInt: `bignum_add_int` is modelled with operand sizes up to `rsize`, which are its callers' sizes. The out-of-bounds reads of the as-written countdown are shown separately by `Additive.FetchAsWritten`.

## Findings

| source | as written | input that shows it | evidently intended | confidence | as-written member | corrected member |
|---|---|---|---|---|---|---|
| src/bignum.c:56-60 | `LONG_MIN` is built as sign -1 with words [0, 1] | v = LONG_MIN: the buffer denotes -2^64 | sign -1 with the one word 2^63, since \|LONG_MIN\| fits an unsigned word | not executed | Bignums.MakeBignumFromSILongMin | Bignums.MakeBignumFromLong |
| src/bignum.c:195-212 | `continue` still runs `xsize--, ysize--`, so a countdown goes below zero and `bx->values[i]` is read past the operand | Scm_BignumAdd of +[2^62] and +[1, 2, 3], rsize = 3: pass 2 reads x[2] | a word beyond an operand reads as 0 | not executed | Additive.AddIntReadsPastShorterOperand | Additive.AddInt |
| src/bignum.c:229-247 | The borrow loop of `bignum_sub_int` has the same countdown, so it too reads past the shorter operand | Scm_BignumSub of +[1, 2, 3] and +[2^62], rsize = 3: pass 2 reads y[2] | a word beyond an operand reads as 0 | not executed | Additive.SubIntReadsPastShorterOperand | Additive.SubLoop |
| src/bignum.c:108-119 | Only `values[0]` is inspected | +[5, 1] converts to 5, and -[2^63 + 1] converts to LONG_MAX | saturation to [LONG_MIN, LONG_MAX] for every normalized input | not executed | Bignums.BignumToSIMissesClip | Bignums.BignumToSISaturating |
| src/bignum.c:288 | `yabs` is an `int`. Scm_BignumAddSI and Scm_BignumSubSI (Additive.AddSIAsWritten, Additive.SubSIAsWritten) pass the loss on | y = 2^32: yabs is 0, and +[2^62] plus 2^32 gives 2^62 | \|y\| held in an unsigned word | not executed | Additive.AddSIAsWrittenLosesScalar | Additive.BignumAddSI |
| src/bignum.c:296-300 | The extra word `rsize - 1` is never written, so the last carry is lost, also through Scm_BignumAddSI and Scm_BignumSubSI | +[2^64 - 1] plus 1 | the carry stored in the top word | not executed | Additive.BignumAddSIAsWrittenDropsCarry | Additive.BignumAddSI |
| src/bignum.c:301-306 | No two's-complement fixup or sign flip after a final borrow, also through Scm_BignumAddSI and Scm_BignumSubSI | +[2^62] plus -2^31 gives 2^62 + 2^31 | fix up and flip the sign as `bignum_sub_int` does | not executed | Additive.AddSIAsWrittenBorrowsUnfixed | Additive.BignumAddSI |
| src/bignum.c:327 | `-y` overflows a `long` at y = LONG_MIN and wraps back to LONG_MIN | +[2^62] minus LONG_MIN gives 2^62 | x - y with -LONG_MIN = 2^63 taken as one unsigned word | not executed | Additive.SubSIAsWrittenAtLongMin | Additive.SubSI |
| src/bignum.c:390 | The right-shift loop starts at `nwords` and steps `i--` under `i < bx->size` | any bx with nwords < size: pass nwords + 1 reads index -1 | each word from nwords to size - 1 visited once. Going low to high, which working in place on bx requires, means reading the upper neighbour instead of carrying `prev` | not executed | Shifts.RShiftAsWrittenLeavesBuffer | Shifts.ShiftWordsDown |
| src/bignum.c:411 | The left-shift loop starts at `size - 1` and steps `i++` under `i >= 0` | any nonempty bx: pass 1 reads index size | each word from 0 to size - 1 visited once. Going high to low, which working in place on bx requires, means reading the lower neighbour instead of carrying `prev` | not executed | Shifts.LShiftAsWrittenLeavesBuffer | Shifts.ShiftWordsUp |
| src/bignum.c:416 | The size is set to `bx->size + nwords`, so the final `prev` word is never stored | +[2^63] shifted left by 1 needs 2^64 | one word more for the bits shifted out | not executed | Shifts.LShiftAsWrittenTooShort | Shifts.LShift |

=== FILE: additive.dfy ===
/**
 * The additive engine: the conservative result size, the unsigned carry and
 * borrow loops, the two's-complement fixup, the signed combinators and the
 * scalar (one `long`) variants, plus the public entry points that normalize.
 */
module Additive {
  import opened Words
  import opened Magnitude
  import opened Bignums

  function Max(a: nat, b: nat): nat {
    if a >= b then a else b
  }

  function Top(b: Bignum): nat
    requires |b.words| >= 1
  {
    b.words[|b.words| - 1]
  }

  /**
   * bignum_safe_size_for_add: the larger size, plus one word when the sizes
   * are equal or the longer operand's top word is all ones.
   */
  function SafeSizeForAdd(x: Bignum, y: Bignum): (n: nat)
    requires Valid(x) && Valid(y)
    ensures Max(|x.words|, |y.words|) <= n <= Max(|x.words|, |y.words|) + 1
    ensures Val(x.words) + Val(y.words) < WordPow(n)
    ensures n == Max(|x.words|, |y.words|) + 1 <==>
      || |x.words| == |y.words|
      || (|x.words| > |y.words| && Top(x) == SCM_ULONG_MAX)
      || (|y.words| > |x.words| && Top(y) == SCM_ULONG_MAX)
  {
    var xsize, ysize := |x.words|, |y.words|;
    if xsize > ysize then
      SafeSizeBound(x.words, y.words);
      if Top(x) == SCM_ULONG_MAX then xsize + 1 else xsize
    else if ysize > xsize then
      SafeSizeBound(y.words, x.words);
      if Top(y) == SCM_ULONG_MAX then ysize + 1 else ysize
    else
      SafeSizeBound(x.words, y.words);
      xsize + 1
  }

  /**
   * The sum of a longer magnitude and a shorter one fits the longer size when
   * the longer top word is not all ones, and always fits one word more.
   */
  lemma SafeSizeBound(a: seq<nat>, b: seq<nat>)
    requires WordsOk(a) && WordsOk(b) && |a| >= 1 && |b| <= |a|
    ensures Val(a) + Val(b) < WordPow(|a| + 1)
    ensures |b| < |a| && a[|a| - 1] != SCM_ULONG_MAX ==> Val(a) + Val(b) < WordPow(|a|)
  {
    var n := |a|;
    assert Val(a) < WordPow(n) && Val(b) < WordPow(n) by {
      ValBound(a);
      ValBound(b);
      WordPowMonotone(|b|, n);
    }
    assert WordPow(n + 1) == BASE * WordPow(n);
    if |b| < n && a[n - 1] != SCM_ULONG_MAX {
      var p := WordPow(n - 1);
      assert Val(a) < (a[n - 1] + 1) * p by {
        ValTopBound(a);
      }
      assert (a[n - 1] + 1) * p <= SCM_ULONG_MAX * p by {
        MulMonotone(a[n - 1] + 1, SCM_ULONG_MAX, p);
      }
      assert Val(b) < p by {
        ValBound(b);
        WordPowMonotone(|b|, n - 1);
      }
      assert WordPow(n) == BASE * p;
    }
  }

  /** One step of a carry chain, weighted by p = BASE^i. */
  lemma CarryStep(v: int, c: int, p: int, w: int, c2: int, a: int, b: int, s: int)
    requires v + c * p == s
    requires w + c2 * BASE == a + b + c
    ensures v + w * p + c2 * (BASE * p) == s + a * p + b * p
  {
    assert (w + c2 * BASE) * p == (a + b + c) * p;
  }

  /** One step of a borrow chain, weighted by p = BASE^i. */
  lemma BorrowStep(v: int, c: int, p: int, w: int, c2: int, a: int, b: int, s: int)
    requires v - c * p == s
    requires w - c2 * BASE == a - b - c
    ensures v + w * p - c2 * (BASE * p) == s + a * p - b * p
  {
    assert (w - c2 * BASE) * p == (a - b - c) * p;
  }

  /** One step of the complement-and-increment chain, weighted by p = BASE^i. */
  lemma ComplementStep(v: int, c: int, p: int, w: int, c2: int, a: int, low: int)
    requires v + c * p + low == p
    requires w + c2 * BASE == SCM_ULONG_MAX - a + c
    ensures v + w * p + c2 * (BASE * p) + (low + a * p) == BASE * p
  {
    assert (w + c2 * BASE) * p == (SCM_ULONG_MAX - a + c) * p;
  }

  /**
   * The final borrow of a subtraction over n words: with every value below
   * BASE^n it is set exactly when the subtrahend is larger.
   */
  lemma BorrowMeaning(vr: int, c: int, w: int, vx: int, vy: int)
    requires 0 <= vr < w && 0 <= vx < w && 0 <= vy < w && (c == 0 || c == 1)
    requires vr - c * w == vx - vy
    ensures c == 1 <==> vx < vy
  {
    if c == 1 {
      assert vr - w == vx - vy;
    } else {
      assert vr == vx - vy;
    }
  }

  /** One UADD step keeps the invariant of the carry loop. */
  lemma AddStep(r: seq<nat>, c: nat, x: seq<nat>, y: seq<nat>, s: Step)
    requires WordsOk(x) && WordsOk(y) && c <= 1
    requires Val(r) + c * WordPow(|r|) == Val(Low(x, |r|)) + Val(Low(y, |r|))
    requires s == UAdd(Word(x, |r|), Word(y, |r|), c)
    ensures Val(r + [s.word]) + s.carry * WordPow(|r| + 1) == Val(Low(x, |r| + 1)) + Val(Low(y, |r| + 1))
  {
    var i := |r|;
    ValSnoc(r, s.word);
    ValLowStep(x, i);
    ValLowStep(y, i);
    CarryStep(Val(r), c, WordPow(i), s.word, s.carry, Word(x, i), Word(y, i),
              Val(Low(x, i)) + Val(Low(y, i)));
  }

  /** One USUB step keeps the invariant of the borrow loop. */
  lemma SubStep(r: seq<nat>, c: nat, x: seq<nat>, y: seq<nat>, s: Step)
    requires WordsOk(x) && WordsOk(y) && c <= 1
    requires Val(r) - c * WordPow(|r|) == Val(Low(x, |r|)) - Val(Low(y, |r|))
    requires s == USub(Word(x, |r|), Word(y, |r|), c)
    ensures Val(r + [s.word]) - s.carry * WordPow(|r| + 1) == Val(Low(x, |r| + 1)) - Val(Low(y, |r| + 1))
  {
    var i := |r|;
    ValSnoc(r, s.word);
    ValLowStep(x, i);
    ValLowStep(y, i);
    BorrowStep(Val(r), c, WordPow(i), s.word, s.carry, Word(x, i), Word(y, i),
               Val(Low(x, i)) - Val(Low(y, i)));
  }

  /** One complement-and-increment step keeps the invariant of bignum_2scmpl. */
  lemma ComplementInvStep(r: seq<nat>, c: nat, ws: seq<nat>, s: Step)
    requires WordsOk(ws) && |r| < |ws| && c <= 1
    requires Val(r) + c * WordPow(|r|) + Val(ws[..|r|]) == WordPow(|r|)
    requires s == UAdd(SCM_ULONG_MAX - ws[|r|], 0, c)
    ensures Val(r + [s.word]) + s.carry * WordPow(|r| + 1) + Val(ws[..|r| + 1]) == WordPow(|r| + 1)
  {
    var i := |r|;
    ValSnoc(r, s.word);
    assert ws[..i + 1] == ws[..i] + [ws[i]];
    ValSnoc(ws[..i], ws[i]);
    ComplementStep(Val(r), c, WordPow(i), s.word, s.carry, ws[i], Val(ws[..i]));
  }

  /** The result of the operand reads of the add and subtract loops. */
  datatype Fetch = Read(w: nat) | PastEnd

  /**
   * The operand read of bignum_add_int and bignum_sub_int at position i, where
   * `left` is the operand's size counter after i decrements. The loop tests
   * `left == 0` only, so once the counter has gone below zero it reads the
   * word at i, which lies past the end of the operand (PastEnd).
   */
  function FetchAsWritten(ws: seq<nat>, left: int, i: nat): (f: Fetch)
    requires left == |ws| - i
    ensures f.Read? <==> i <= |ws|
    ensures f.Read? ==> f.w == Word(ws, i)
  {
    if left == 0 then Read(0)
    else if i < |ws| then Read(ws[i])
    else PastEnd
  }

  /**
   * Adding the one-word bignum 2^62 to a three-word one: the safe size is 3,
   * and at the last position bignum_add_int reads the one-word operand past
   * its end.
   */
  lemma AddIntReadsPastShorterOperand()
    ensures SafeSizeForAdd(Bignum(Plus, [0x4000_0000_0000_0000]), Bignum(Plus, [1, 2, 3])) == 3
    ensures FetchAsWritten([0x4000_0000_0000_0000], 1 - 2, 2) == PastEnd
  {
  }

  /**
   * Subtracting the one-word bignum 2^62 from a three-word one of the same
   * sign goes through bignum_sub_int with the safe size 3, and at the last
   * position that loop reads the one-word subtrahend past its end.
   */
  lemma SubIntReadsPastShorterOperand()
    ensures SafeSizeForAdd(Bignum(Plus, [1, 2, 3]), Bignum(Plus, [0x4000_0000_0000_0000])) == 3
    ensures FetchAsWritten([0x4000_0000_0000_0000], 1 - 2, 2) == PastEnd
  {
  }

  /**
   * bignum_add_int: br = |bx| + |by| over rsize words, the operand words
   * above an operand's size read as zero. The final carry is not stored, so
   * the result is the sum modulo BASE^rsize, which is the sum itself when
   * rsize is large enough.
   */
  method AddInt(rsize: nat, x: seq<nat>, y: seq<nat>) returns (r: seq<nat>)
    requires WordsOk(x) && WordsOk(y)
    requires |x| <= rsize && |y| <= rsize
    ensures |r| == rsize && WordsOk(r)
    ensures Val(r) == (Val(x) + Val(y)) % WordPow(rsize)
    ensures Val(x) + Val(y) < WordPow(rsize) ==> Val(r) == Val(x) + Val(y)
  {
    r := [];
    var c: nat := 0;
    var i: nat := 0;
    while i < rsize
      invariant i <= rsize && |r| == i && WordsOk(r) && c <= 1
      invariant Val(r) + c * WordPow(i) == Val(Low(x, i)) + Val(Low(y, i))
    {
      // an operand past its own size contributes zero words
      var s := UAdd(Word(x, i), Word(y, i), c);
      AddStep(r, c, x, y, s);
      r := r + [s.word];
      c := s.carry;
      i := i + 1;
    }
    assert Low(x, rsize) == x && Low(y, rsize) == y;
    assert Val(r) < WordPow(rsize) by { ValBound(r); }
    ModOfCarry(Val(r), c, WordPow(rsize), Val(x) + Val(y));
    if Val(x) + Val(y) < WordPow(rsize) {
      ModOfCarry(Val(x) + Val(y), 0, WordPow(rsize), Val(x) + Val(y));
    }
  }

  /**
   * The borrow loop of bignum_sub_int: |bx| - |by| over rsize words, returning
   * the final borrow. With both operands within rsize words the borrow is set
   * exactly when |by| > |bx|, and the words then hold the wrapped difference.
   */
  method SubLoop(rsize: nat, x: seq<nat>, y: seq<nat>) returns (r: seq<nat>, borrow: nat)
    requires WordsOk(x) && WordsOk(y)
    requires |x| <= rsize && |y| <= rsize
    ensures |r| == rsize && WordsOk(r) && borrow <= 1
    ensures Val(r) == borrow * WordPow(rsize) + Val(x) - Val(y)
    ensures borrow == 1 <==> Val(x) < Val(y)
  {
    r := [];
    var c: nat := 0;
    var i: nat := 0;
    while i < rsize
      invariant i <= rsize && |r| == i && WordsOk(r) && c <= 1
      invariant Val(r) - c * WordPow(i) == Val(Low(x, i)) - Val(Low(y, i))
    {
      // an operand past its own size contributes zero words
      var s := USub(Word(x, i), Word(y, i), c);
      SubStep(r, c, x, y, s);
      r := r + [s.word];
      c := s.carry;
      i := i + 1;
    }
    assert Low(x, rsize) == x && Low(y, rsize) == y;
    assert Val(r) < WordPow(rsize) && Val(x) < WordPow(rsize) && Val(y) < WordPow(rsize) by {
      ValBound(r);
      ValBound(x);
      ValBound(y);
      WordPowMonotone(|x|, rsize);
      WordPowMonotone(|y|, rsize);
    }
    BorrowMeaning(Val(r), c, WordPow(rsize), Val(x), Val(y));
    borrow := c;
  }

  /**
   * bignum_2scmpl: complement every word and add one across the buffer. The
   * result is BASE^n minus the input, and the final carry is zero exactly
   * when the input is nonzero.
   */
  method TwosComplement(ws: seq<nat>) returns (r: seq<nat>, carry: nat)
    requires WordsOk(ws)
    ensures |r| == |ws| && WordsOk(r) && carry <= 1
    ensures Val(r) + carry * WordPow(|ws|) == WordPow(|ws|) - Val(ws)
    ensures carry == 0 <==> Val(ws) > 0
    ensures Val(ws) > 0 ==> Val(r) == WordPow(|ws|) - Val(ws)
  {
    r := [];
    var c: nat := 1;
    var i: nat := 0;
    while i < |ws|
      invariant i <= |ws| && |r| == i && WordsOk(r) && c <= 1
      invariant Val(r) + c * WordPow(i) + Val(ws[..i]) == WordPow(i)
    {
      var x := SCM_ULONG_MAX - ws[i];
      var s := UAdd(x, 0, c);
      ComplementInvStep(r, c, ws, s);
      r := r + [s.word];
      c := s.carry;
      i := i + 1;
    }
    assert ws[..|ws|] == ws;
    ValBound(r);
    ValBound(ws);
    carry := c;
  }

  /**
   * bignum_sub_int: the borrow loop, then, when it borrowed, the
   * two's-complement fixup and a flip of the buffer's sign. The result holds
   * the distance between the magnitudes and the sign flips exactly when
   * |by| > |bx|.
   */
  method SubInt(rsize: nat, sign: Sign, x: seq<nat>, y: seq<nat>) returns (b: Bignum)
    requires WordsOk(x) && WordsOk(y)
    requires |x| <= rsize && |y| <= rsize
    ensures |b.words| == rsize && WordsOk(b.words)
    ensures Val(x) >= Val(y) ==> b.sign == sign && Val(b.words) == Val(x) - Val(y)
    ensures Val(x) < Val(y) ==> b.sign == sign.Negate() && Val(b.words) == Val(y) - Val(x)
  {
    var r, c := SubLoop(rsize, x, y);
    if c != 0 {
      ValBound(y);
      WordPowMonotone(|y|, rsize);
      var r2, c2 := TwosComplement(r);
      assert c2 == 0;
      b := Bignum(sign.Negate(), r2);
    } else {
      b := Bignum(sign, r);
    }
  }

  /**
   * bignum_add: x + y in a buffer of the safe size, not normalized. Equal
   * signs add the magnitudes under x's sign; different signs subtract them.
   */
  method BignumAdd(x: Bignum, y: Bignum) returns (r: Bignum)
    requires Valid(x) && Valid(y) && x.sign != Zero && y.sign != Zero
    ensures Valid(r) && r.sign != Zero
    ensures |r.words| == SafeSizeForAdd(x, y)
    ensures SignedValue(r) == SignedValue(x) + SignedValue(y)
    ensures x.sign == y.sign ==> r.sign == x.sign
    ensures x.sign != y.sign ==> (r.sign == x.sign <==> Val(x.words) >= Val(y.words))
  {
    var rsize := SafeSizeForAdd(x, y);
    if x.sign == y.sign {
      var ws := AddInt(rsize, x.words, y.words);
      r := Bignum(x.sign, ws);
    } else {
      r := SubInt(rsize, x.sign, x.words, y.words);
    }
  }

  /**
   * bignum_sub: x - y in a buffer of the safe size, not normalized. Equal
   * signs subtract the magnitudes; different signs add them under x's sign.
   */
  method BignumSub(x: Bignum, y: Bignum) returns (r: Bignum)
    requires Valid(x) && Valid(y) && x.sign != Zero && y.sign != Zero
    ensures Valid(r) && r.sign != Zero
    ensures |r.words| == SafeSizeForAdd(x, y)
    ensures SignedValue(r) == SignedValue(x) - SignedValue(y)
    ensures x.sign != y.sign ==> r.sign == x.sign
    ensures x.sign == y.sign ==> (r.sign == x.sign <==> Val(x.words) >= Val(y.words))
  {
    var rsize := SafeSizeForAdd(x, y);
    if x.sign == y.sign {
      r := SubInt(rsize, x.sign, x.words, y.words);
    } else {
      var ws := AddInt(rsize, x.words, y.words);
      r := Bignum(x.sign, ws);
    }
  }

  function Abs(v: int): nat {
    if v < 0 then -v else v
  }

  /** `ysign`: the sign bignum_add_si gives a nonzero scalar. */
  function ScalarSign(y: int): Sign {
    if y < 0 then Minus else Plus
  }

  /**
   * x + y for a scalar y whose magnitude fits one word, in a buffer one word
   * longer than x: the scalar is a one-word operand of the add or subtract
   * loop, the carry lands in the extra word and a borrow is fixed up. A zero
   * scalar returns x itself.
   */
  method BignumAddSI(x: Bignum, y: int) returns (r: Bignum)
    requires Valid(x) && x.sign != Zero && IsWord(Abs(y))
    ensures Valid(r) && r.sign != Zero
    ensures y == 0 ==> r == x
    ensures y != 0 ==> |r.words| == |x.words| + 1
    ensures SignedValue(r) == SignedValue(x) + y
  {
    if y == 0 {
      return x;
    }
    var rsize := |x.words| + 1;
    var yabs := Abs(y);
    ValSingleton(yabs);
    ValBound(x.words);
    assert WordPow(rsize) == BASE * WordPow(|x.words|);
    if x.sign == ScalarSign(y) {
      var ws := AddInt(rsize, x.words, [yabs]);
      r := Bignum(x.sign, ws);
    } else {
      r := SubInt(rsize, x.sign, x.words, [yabs]);
    }
  }

  /** `(int)v` for a long v: reduced to the 32-bit range [-2^31, 2^31). */
  function IntOfLong(v: int): (r: int)
    ensures -0x8000_0000 <= r < 0x8000_0000
    ensures (r - v) % 0x1_0000_0000 == 0
  {
    (v + 0x8000_0000) % 0x1_0000_0000 - 0x8000_0000
  }

  /**
   * The scalar word the loops of bignum_add_si combine: the int `yabs`,
   * converted to u_long.
   */
  function YabsWord(y: Long): (w: nat)
    ensures IsWord(w)
    ensures w == if Abs(y) % 0x1_0000_0000 < 0x8000_0000 then Abs(y) % 0x1_0000_0000
                 else BASE - 0x1_0000_0000 + Abs(y) % 0x1_0000_0000
  {
    IntOfNatResidue(Abs(y));
    var v := IntOfLong(Abs(y));
    if v >= 0 then
      ModOfCarry(v, 0, BASE, v);
      v % BASE
    else
      ModOfCarry(v + BASE, -1, BASE, v);
      v % BASE
  }

  /** The int conversion of a natural number is its residue mod 2^32, sign-extended from bit 31. */
  lemma IntOfNatResidue(a: nat)
    ensures IntOfLong(a) == if a % 0x1_0000_0000 < 0x8000_0000 then a % 0x1_0000_0000
                            else a % 0x1_0000_0000 - 0x1_0000_0000
  {
    var q, m := a / 0x1_0000_0000, a % 0x1_0000_0000;
    assert a == q * 0x1_0000_0000 + m;
    if m < 0x8000_0000 {
      ModOfCarry(m + 0x8000_0000, q, 0x1_0000_0000, a + 0x8000_0000);
    } else {
      ModOfCarry(m - 0x8000_0000, q + 1, 0x1_0000_0000, a + 0x8000_0000);
    }
  }

  /** A scalar below 2^31 in magnitude survives the int conversion. */
  lemma YabsWordSmall(y: Long)
    requires Abs(y) < 0x8000_0000
    ensures YabsWord(y) == Abs(y)
  {
  }

  /** 2^32 does not: its int yabs is zero, so the as-written code adds nothing. */
  lemma YabsWordTruncates()
    ensures YabsWord(0x1_0000_0000) == 0
  {
  }

  /**
   * bignum_add_si as written: yabs is an int, the loops run over the x.size
   * low words only, the extra word of the buffer is never written (it keeps
   * whatever the allocator left there, `stale`), and a borrow is never fixed
   * up. The low words hold |x| + yabs or |x| - yabs, wrapped to x.size words.
   */
  method BignumAddSIAsWritten(x: Bignum, y: Long, stale: nat) returns (r: Bignum)
    requires Valid(x) && IsWord(stale)
    ensures y == 0 ==> r == x
    ensures y != 0 ==> r.sign == x.sign && |r.words| == |x.words| + 1 && WordsOk(r.words)
    ensures y != 0 ==> r.words[|x.words|] == stale
    ensures y != 0 && x.sign == ScalarSign(y) ==>
      Val(r.words[..|x.words|]) == (Val(x.words) + YabsWord(y)) % WordPow(|x.words|)
    ensures y != 0 && x.sign != ScalarSign(y) ==>
      Val(r.words[..|x.words|]) == (Val(x.words) - YabsWord(y)) % WordPow(|x.words|)
  {
    if y == 0 {
      return x;
    }
    var n := |x.words|;
    var yabs := YabsWord(y);
    ValSingleton(yabs);
    var low: seq<nat>;
    if x.sign == ScalarSign(y) {
      low := AddInt(n, x.words, [yabs]);
    } else {
      var borrow;
      low, borrow := SubLoop(n, x.words, [yabs]);
      ValBound(low);
      ModOfCarry(Val(low), -(borrow as int), WordPow(n), Val(x.words) - yabs);
    }
    r := Bignum(x.sign, low + [stale]);
    assert r.words[..n] == low;
  }

  /**
   * The carry out of the top word is lost: adding 1 to the one-word bignum
   * SCM_ULONG_MAX leaves the low word 0 and the top word stale.
   */
  method BignumAddSIAsWrittenDropsCarry(stale: nat) returns (r: Bignum)
    requires IsWord(stale) && stale != 1
    ensures SignedValue(r) != SCM_ULONG_MAX + 1
  {
    r := BignumAddSIAsWritten(Bignum(Plus, [SCM_ULONG_MAX]), 1, stale);
    ValSingleton(SCM_ULONG_MAX);
    ValSingle(r.words[..1]);
    assert r.words == r.words[..1] + [stale];
    ValSnoc(r.words[..1], stale);
  }

  /**
   * A borrow is not fixed up: 1 + (-2) leaves the low word BASE - 1 under
   * the positive sign of x.
   */
  method BignumAddSIAsWrittenMissesFixup(stale: nat) returns (r: Bignum)
    requires IsWord(stale)
    ensures SignedValue(r) != 1 + -2
  {
    r := BignumAddSIAsWritten(Bignum(Plus, [1]), -2, stale);
  }

  /**
   * A reachable missed fixup: -2^31 is an int yabs of -2^31, sign-extended to
   * BASE - 2^31, so subtracting it from the bignum 2^62 borrows. Without the
   * fixup, and with a zero stale word, the result is 2^62 + 2^31 instead of
   * 2^62 - 2^31.
   */
  method AddSIAsWrittenBorrowsUnfixed() returns (r: Num)
    ensures NumValue(r) == 0x4000_0000_0000_0000 + 0x8000_0000
    ensures NumValue(r) != 0x4000_0000_0000_0000 - 0x8000_0000
  {
    r := AddSIAsWritten(Bignum(Plus, [0x4000_0000_0000_0000]), -0x8000_0000, 0);
    ValSingleton(0x4000_0000_0000_0000);
  }

  /** Scm_BignumAdd: x + y, normalized. */
  method Add(x: Bignum, y: Bignum) returns (r: Num)
    requires Valid(x) && Valid(y) && x.sign != Zero && y.sign != Zero
    ensures NumValue(r) == SignedValue(x) + SignedValue(y)
    ensures r.Small? <==> SMALL_INT_MIN <= NumValue(r) <= SMALL_INT_MAX
  {
    var b := BignumAdd(x, y);
    r := NormalizeBignum(b);
  }

  /** Scm_BignumSub: x - y, normalized. */
  method Sub(x: Bignum, y: Bignum) returns (r: Num)
    requires Valid(x) && Valid(y) && x.sign != Zero && y.sign != Zero
    ensures NumValue(r) == SignedValue(x) - SignedValue(y)
    ensures r.Small? <==> SMALL_INT_MIN <= NumValue(r) <= SMALL_INT_MAX
  {
    var b := BignumSub(x, y);
    r := NormalizeBignum(b);
  }

  /** Scm_BignumAddSI over the corrected scalar add: x + y for a long y, normalized. */
  method AddSI(x: Bignum, y: Long) returns (r: Num)
    requires Valid(x) && x.sign != Zero
    ensures NumValue(r) == SignedValue(x) + y
    ensures r.Small? <==> SMALL_INT_MIN <= NumValue(r) <= SMALL_INT_MAX
  {
    var b := BignumAddSI(x, y);
    r := NormalizeBignum(b);
  }

  /**
   * Scm_BignumSubSI with the scalar negated exactly: -LONG_MIN = 2^63 is not a
   * long, but its magnitude fits the one-word operand of the corrected add.
   */
  method SubSI(x: Bignum, y: Long) returns (r: Num)
    requires Valid(x) && x.sign != Zero
    ensures NumValue(r) == SignedValue(x) - y
    ensures r.Small? <==> SMALL_INT_MIN <= NumValue(r) <= SMALL_INT_MAX
  {
    var b := BignumAddSI(x, -(y as int));
    r := NormalizeBignum(b);
  }

  /**
   * The value bignum_add_si as written leaves for a nonzero scalar: the low
   * words wrapped to the size of x, the stale word on top, under x's sign.
   */
  function AddSIAsWrittenValue(x: Bignum, y: Long, stale: nat): int
    requires Valid(x)
  {
    var n := |x.words|;
    var low := if x.sign == ScalarSign(y) then (Val(x.words) + YabsWord(y)) % WordPow(n)
               else (Val(x.words) - YabsWord(y)) % WordPow(n);
    var mag := low + stale * WordPow(n);
    if x.sign == Minus then -mag else if x.sign == Zero then 0 else mag
  }

  /** Scm_BignumAddSI as written: the as-written bignum_add_si, normalized. */
  method AddSIAsWritten(x: Bignum, y: Long, stale: nat) returns (r: Num)
    requires Valid(x) && x.sign != Zero && IsWord(stale)
    ensures y == 0 ==> NumValue(r) == SignedValue(x)
    ensures y != 0 ==> NumValue(r) == AddSIAsWrittenValue(x, y, stale)
    ensures r.Small? <==> SMALL_INT_MIN <= NumValue(r) <= SMALL_INT_MAX
  {
    var b := BignumAddSIAsWritten(x, y, stale);
    if y != 0 {
      assert SignedValue(b) == AddSIAsWrittenValue(x, y, stale) by {
        var n := |x.words|;
        assert b.words == b.words[..n] + [stale];
        ValSnoc(b.words[..n], stale);
      }
    }
    r := NormalizeBignum(b);
  }

  /**
   * Scm_BignumSubSI as written: bignum_add_si of `-y`, where negating
   * LONG_MIN wraps back to LONG_MIN.
   */
  method SubSIAsWritten(x: Bignum, y: Long, stale: nat) returns (r: Num)
    requires Valid(x) && x.sign != Zero && IsWord(stale)
    ensures y == 0 ==> NumValue(r) == SignedValue(x)
    ensures y != 0 && y != LONG_MIN ==> NumValue(r) == AddSIAsWrittenValue(x, -y, stale)
    ensures y == LONG_MIN ==> NumValue(r) == AddSIAsWrittenValue(x, LONG_MIN, stale)
    ensures r.Small? <==> SMALL_INT_MIN <= NumValue(r) <= SMALL_INT_MAX
  {
    r := AddSIAsWritten(x, NegateLong(y), stale);
  }

  /**
   * Adding 2^32 to the bignum 2^62 as written: yabs is 0, so with a zero
   * stale word the result is 2^62 itself, not 2^62 + 2^32.
   */
  method AddSIAsWrittenLosesScalar() returns (r: Num)
    ensures NumValue(r) == 0x4000_0000_0000_0000
    ensures NumValue(r) != 0x4000_0000_0000_0000 + 0x1_0000_0000
  {
    r := AddSIAsWritten(Bignum(Plus, [0x4000_0000_0000_0000]), 0x1_0000_0000, 0);
    ValSingleton(0x4000_0000_0000_0000);
  }

  /**
   * Subtracting LONG_MIN as written: `-y` wraps to LONG_MIN and the int yabs
   * of 2^63 is 0, so with a zero stale word the bignum 2^62 comes back
   * unchanged instead of growing by 2^63.
   */
  method SubSIAsWrittenAtLongMin() returns (r: Num)
    ensures NumValue(r) == 0x4000_0000_0000_0000
    ensures NumValue(r) != 0x4000_0000_0000_0000 - LONG_MIN
  {
    r := SubSIAsWritten(Bignum(Plus, [0x4000_0000_0000_0000]), LONG_MIN, 0);
    ValSingleton(0x4000_0000_0000_0000);
  }
}

=== FILE: bignum.dfy ===
/**
 * The bignum object (sign plus magnitude), the runtime's small integers,
 * construction from a `long`, copying, normalization, conversion back to a
 * `long`, and negation.
 */
module Bignums {
  import opened Words
  import opened Magnitude

  /** The sign field: -1, 0 or 1. */
  datatype Sign = Minus | Zero | Plus {
    function ToInt(): int {
      match this
      case Minus => -1
      case Zero => 0
      case Plus => 1
    }

    /** `0 - sign`. */
    function Negate(): (s: Sign)
      ensures s.ToInt() == -ToInt()
    {
      match this
      case Minus => Plus
      case Zero => Zero
      case Plus => Minus
    }
  }

  /** A bignum: its `size` is |words|, least significant word first. */
  datatype Bignum = Bignum(sign: Sign, words: seq<nat>)

  /** The integer a bignum denotes: sign times magnitude. */
  function SignedValue(b: Bignum): int {
    match b.sign
    case Minus => -(Val(b.words) as int)
    case Zero => 0
    case Plus => Val(b.words)
  }

  /** A buffer of at least one word, every word in range. */
  predicate Valid(b: Bignum) {
    |b.words| >= 1 && WordsOk(b.words)
  }

  /** No superfluous zero word on top (a single zero word is allowed). */
  predicate Trimmed(ws: seq<nat>) {
    |ws| >= 1 && (|ws| == 1 || ws[|ws| - 1] != 0)
  }

  /** What a public operation hands back: a small integer or a bignum. */
  datatype Num = Small(n: int) | Big(b: Bignum)

  function NumValue(x: Num): int {
    match x
    case Small(n) => n
    case Big(b) => SignedValue(b)
  }

  /** Scm_MakeBignumFromSI as written: LONG_MIN becomes the words [0, 1]. */
  function MakeBignumFromSI(v: Long): (b: Bignum)
    ensures Valid(b)
    ensures v != LONG_MIN ==> |b.words| == 1 && SignedValue(b) == v
    ensures v == LONG_MIN ==> b.sign == Minus && b.words == [0, 1]
    ensures b.sign != Zero && (b.sign == Plus <==> v >= 0)
  {
    if v == LONG_MIN then Bignum(Minus, [0, 1])
    else if v < 0 then
      var m: nat := -v;
      ValSingleton(m);
      Bignum(Minus, [m])
    else
      ValSingleton(v);
      Bignum(Plus, [v])
  }

  /**
   * The magnitude [0, 1] stands for BASE, not for -LONG_MIN = BASE / 2:
   * the bignum built for LONG_MIN denotes -2^64.
   */
  lemma MakeBignumFromSILongMin()
    ensures SignedValue(MakeBignumFromSI(LONG_MIN)) == -(BASE as int)
    ensures SignedValue(MakeBignumFromSI(LONG_MIN)) != LONG_MIN
  {
    assert Val([0, 1]) == 0 + BASE * Val([1]);
    assert Val([1]) == 1 + BASE * Val([]);
  }

  /**
   * Construction from a `long` with the magnitude of LONG_MIN held in one
   * word, as it fits an unsigned word: the bignum denotes v for every v.
   */
  function MakeBignumFromLong(v: Long): (b: Bignum)
    ensures Valid(b) && Trimmed(b.words) && |b.words| == 1
    ensures SignedValue(b) == v
    ensures b.sign == Plus <==> v >= 0
    ensures b.sign == Minus <==> v < 0
  {
    var m: nat := if v < 0 then 0 - (v as int) else v;
    ValSingleton(m);
    if v < 0 then Bignum(Minus, [m]) else Bignum(Plus, [m])
  }

  /** Scm_BignumCopy: a fresh buffer filled word by word from b. */
  method BignumCopy(b: Bignum) returns (c: Bignum)
    ensures c.sign == b.sign && c.words == b.words
    ensures SignedValue(c) == SignedValue(b)
  {
    var ws: seq<nat> := [];
    var i := 0;
    while i < |b.words|
      invariant i <= |b.words|
      invariant ws == b.words[..i]
    {
      ws := ws + [b.words[i]];
      i := i + 1;
    }
    c := Bignum(b.sign, ws);
  }

  /**
   * The size left by the normalization loop: drop zero words from the top
   * while more than one word remains.
   */
  function Significant(ws: seq<nat>): (n: nat)
    requires |ws| >= 1
    ensures 1 <= n <= |ws|
    ensures Trimmed(ws[..n])
    ensures ZeroFrom(ws, n)
  {
    if |ws| == 1 || ws[|ws| - 1] != 0 then |ws|
    else Significant(ws[..|ws| - 1])
  }

  /**
   * Scm_NormalizeBignum: strip zero words from the top; a buffer that
   * collapses to one word becomes a small integer when its sign is zero or
   * its value fits [SMALL_INT_MIN, SMALL_INT_MAX]. A zero-size buffer is
   * kept as it is.
   */
  function NormalizeBignum(b: Bignum): (r: Num)
    ensures NumValue(r) == SignedValue(b)
    ensures r.Small? ==> SMALL_INT_MIN <= r.n <= SMALL_INT_MAX
    ensures b.sign != Zero ==>
      (r.Small? <==> |b.words| >= 1 && SMALL_INT_MIN <= SignedValue(b) <= SMALL_INT_MAX)
    ensures b.sign == Zero ==> (r.Small? <==> |b.words| >= 1 && ZeroFrom(b.words, 1))
    ensures r.Big? ==> r.b.sign == b.sign && r.b.words <= b.words
    ensures r.Big? && |b.words| >= 1 ==> Trimmed(r.b.words)
    ensures r.Big? && |b.words| >= 1 ==> ZeroFrom(b.words, |r.b.words|)
  {
    if |b.words| == 0 then Big(b)
    else
      var size := Significant(b.words);
      ValDropZeroTop(b.words, size);
      if size == 1 && b.sign == Zero then Small(0)
      else if size == 1 && b.sign == Plus && b.words[0] <= SMALL_INT_MAX then
        ValSingle(b.words);
        Small(b.words[0])
      else if size == 1 && b.sign == Minus && b.words[0] <= -SMALL_INT_MIN then
        ValSingle(b.words);
        Small(-(b.words[0] as int))
      else
        NormalizeKeeps(b, size);
        Big(Bignum(b.sign, b.words[..size]))
  }

  /** A nonzero-signed buffer the normalization keeps does not fit a small integer. */
  lemma NormalizeKeeps(b: Bignum, size: nat)
    requires |b.words| >= 1 && size == Significant(b.words)
    requires size == 1 ==>
      (b.sign == Plus && b.words[0] > SMALL_INT_MAX) || (b.sign == Minus && b.words[0] > -SMALL_INT_MIN)
    ensures b.sign != Zero ==> SignedValue(b) < SMALL_INT_MIN || SignedValue(b) > SMALL_INT_MAX
  {
    ValDropZeroTop(b.words, size);
    if size == 1 {
      ValSingle(b.words);
    } else {
      ValTopLower(b.words[..size]);
    }
  }

  /** Normalizing a bignum that normalization kept gives it back unchanged. */
  lemma NormalizeIdempotent(b: Bignum)
    requires NormalizeBignum(b).Big?
    ensures NormalizeBignum(NormalizeBignum(b).b) == NormalizeBignum(b)
  {
    var k := NormalizeBignum(b).b;
    if |b.words| >= 1 {
      assert Significant(k.words) == |k.words|;
      assert k.words[..|k.words|] == k.words;
      if b.sign == Zero {
        assert !ZeroFrom(k.words, 1);
      }
    }
  }

  /** `(long)w`: reinterpret an unsigned word as a signed long. */
  function AsLong(w: nat): (v: Long)
    requires IsWord(w)
    ensures v >= 0 ==> v == w
    ensures v < 0 ==> v == w - BASE
  {
    if w <= LONG_MAX then w else w - BASE
  }

  /** Negation of a long in two's complement: -LONG_MIN wraps to LONG_MIN. */
  function NegateLong(v: Long): (r: Long)
    ensures v != LONG_MIN ==> r == -v
    ensures v == LONG_MIN ==> r == LONG_MIN
  {
    if v == LONG_MIN then LONG_MIN else -v
  }

  function Clamp(v: int): (r: Long)
    ensures LONG_MIN <= v <= LONG_MAX ==> r == v
    ensures v > LONG_MAX ==> r == LONG_MAX
    ensures v < LONG_MIN ==> r == LONG_MIN
  {
    if v > LONG_MAX then LONG_MAX else if v < LONG_MIN then LONG_MIN else v
  }

  /**
   * Scm_BignumToSI as written: only the lowest word (and, for the LONG_MIN
   * pattern, the second word) is inspected. The requires is exactly what the
   * reads need: a second word whenever a negative bignum's first word is 0.
   */
  function BignumToSI(b: Bignum): (r: Long)
    requires Valid(b)
    requires b.sign == Minus && b.words[0] == 0 ==> |b.words| >= 2
    // what the words say, for every input
    ensures b.sign != Minus ==> r == (if b.words[0] <= LONG_MAX then b.words[0] else LONG_MAX)
    ensures b.sign == Minus && b.words[0] == 0 ==> r == (if b.words[1] != 0 then LONG_MIN else 0)
    ensures b.sign == Minus && 0 < b.words[0] <= -LONG_MIN ==> r == -(b.words[0] as int)
    ensures b.sign == Minus && b.words[0] > -LONG_MIN ==> r == BASE - (b.words[0] as int)
    // what that means for the value: the clipped value on one-word inputs
    // and on the LONG_MIN pattern
    ensures b.sign == Plus && |b.words| == 1 ==> r == Clamp(SignedValue(b))
    ensures b.sign == Minus && |b.words| == 1 && b.words[0] <= -LONG_MIN ==> r == SignedValue(b)
    ensures b.sign == Minus && |b.words| == 2 && b.words[0] == 0 && b.words[1] != 0 ==> r == LONG_MIN
  {
    assert |b.words| == 1 ==> Val(b.words) == b.words[0] by {
      if |b.words| == 1 {
        ValSingle(b.words);
      }
    }
    if b.sign != Minus then
      var r := AsLong(b.words[0]);
      if r < 0 then LONG_MAX else r
    else if b.words[0] == 0 && b.words[1] != 0 then LONG_MIN
    else NegateLong(AsLong(b.words[0]))
  }

  /** Construction from a long and conversion back round-trip for every long. */
  lemma MakeBignumFromSIRoundTrip(v: Long)
    ensures BignumToSI(MakeBignumFromSI(v)) == v
  {
    var b := MakeBignumFromSI(v);
    if v != LONG_MIN {
      assert Val(b.words) == b.words[0] + BASE * Val(b.words[1..]);
    }
  }

  /**
   * Two inputs on which the as-written conversion does not clip: a positive
   * two-word bignum comes back as its low word, and a negative one-word
   * bignum below LONG_MIN comes back positive.
   */
  lemma BignumToSIMissesClip()
    ensures SignedValue(Bignum(Plus, [5, 1])) > LONG_MAX
    ensures BignumToSI(Bignum(Plus, [5, 1])) == 5
    ensures SignedValue(Bignum(Minus, [-LONG_MIN + 1])) < LONG_MIN
    ensures BignumToSI(Bignum(Minus, [-LONG_MIN + 1])) == LONG_MAX
  {
    assert Val([5, 1]) == 5 + BASE * Val([1]);
    assert Val([1]) == 1 + BASE * Val([]);
    assert Val([-LONG_MIN + 1]) == -LONG_MIN + 1 + BASE * Val([]);
  }

  /**
   * Conversion of a trimmed bignum to a long, clipped to [LONG_MIN, LONG_MAX]
   * by looking at the size as well as the low word.
   */
  function BignumToSISaturating(b: Bignum): (r: Long)
    requires Valid(b) && Trimmed(b.words)
    ensures r == Clamp(SignedValue(b))
  {
    ValSizeBound(b.words);
    match b.sign
    case Zero => 0
    case Plus => if |b.words| == 1 && b.words[0] <= LONG_MAX then b.words[0] else LONG_MAX
    case Minus => if |b.words| == 1 && b.words[0] <= -LONG_MIN then -b.words[0] else LONG_MIN
  }

  /** A trimmed magnitude of one word is that word; of more words, at least BASE. */
  lemma ValSizeBound(ws: seq<nat>)
    requires Trimmed(ws)
    ensures |ws| == 1 ==> Val(ws) == ws[0]
    ensures |ws| >= 2 ==> Val(ws) >= BASE
  {
    if |ws| == 1 {
      ValSingle(ws);
    } else {
      ValTopLower(ws);
      WordPowMonotone(1, |ws| - 1);
    }
  }

  /** The corrected construction and conversion round-trip for every long. */
  lemma MakeBignumFromLongRoundTrip(v: Long)
    ensures BignumToSISaturating(MakeBignumFromLong(v)) == v
  {
  }

  /**
   * Scm_BignumNegate: copy, flip the sign of the copy, normalize. The input
   * is left as it was.
   */
  method BignumNegate(b: Bignum) returns (r: Num)
    ensures NumValue(r) == -SignedValue(b)
    ensures r.Big? ==> r.b.sign == b.sign.Negate()
  {
    var c := BignumCopy(b);
    c := c.(sign := c.sign.Negate());
    r := NormalizeBignum(c);
  }
}

=== FILE: fold.dfy ===
/**
 * Scm_BignumAddN and Scm_BignumSubN restricted to their integer path: a
 * left fold of the argument list into a bignum accumulator with the scalar
 * add for small integers and the signed combinators for bignums. The first
 * inexact argument stops the fold and hands the accumulator and the rest of
 * the list to the generic arithmetic; the first argument that is not a
 * number stops it with a type error.
 */
module Fold {
  import opened Words
  import opened Magnitude
  import opened Bignums
  import opened Additive

  /** An argument, by the runtime class the fold tests it against. */
  datatype Operand = Fixnum(v: int) | BigOperand(b: Bignum) | Inexact | NotANumber

  /** A small integer is in the small range; a bignum argument is a well-formed nonzero bignum. */
  predicate OperandOk(o: Operand) {
    match o
    case Fixnum(v) => SMALL_INT_MIN <= v <= SMALL_INT_MAX
    case BigOperand(b) => Valid(b) && b.sign != Zero
    case _ => true
  }

  predicate IsExact(o: Operand) {
    o.Fixnum? || o.BigOperand?
  }

  function OperandValue(o: Operand): int
    requires IsExact(o)
  {
    if o.Fixnum? then o.v else SignedValue(o.b)
  }

  /** The number of exact arguments before the first inexact or non-number one. */
  function ExactPrefix(args: seq<Operand>): (k: nat)
    ensures k <= |args|
    ensures forall i :: 0 <= i < k ==> IsExact(args[i])
    ensures k < |args| ==> !IsExact(args[k])
  {
    if |args| == 0 || !IsExact(args[0]) then 0 else 1 + ExactPrefix(args[1..])
  }

  /** The sum of the first k arguments, all exact. */
  function Sum(args: seq<Operand>, k: nat): int
    requires k <= |args| && forall i :: 0 <= i < k ==> IsExact(args[i])
  {
    if k == 0 then 0 else Sum(args, k - 1) + OperandValue(args[k - 1])
  }

  /**
   * The end of a fold: an exact normalized result, a hand-over of the
   * accumulator and the remaining arguments (from the inexact one on) to the
   * generic arithmetic, or a type error naming the offending argument.
   */
  datatype Outcome = Exact(n: Num) | Promote(acc: Bignum, rest: seq<Operand>) | TypeError(culprit: Operand)

  /** Scm_BignumAddN: x plus every argument, left to right. */
  method BignumAddN(x: Bignum, args: seq<Operand>) returns (r: Outcome)
    requires Valid(x) && x.sign != Zero
    requires forall i :: 0 <= i < |args| ==> OperandOk(args[i])
    ensures r.Exact? <==> ExactPrefix(args) == |args|
    ensures r.Exact? ==> NumValue(r.n) == SignedValue(x) + Sum(args, |args|)
    ensures r.Promote? <==> ExactPrefix(args) < |args| && args[ExactPrefix(args)].Inexact?
    ensures r.Promote? ==> Valid(r.acc) && r.rest == args[ExactPrefix(args)..]
    ensures r.Promote? ==> SignedValue(r.acc) == SignedValue(x) + Sum(args, ExactPrefix(args))
    ensures r.TypeError? ==> r.culprit == args[ExactPrefix(args)] && r.culprit.NotANumber?
  {
    var acc := x;
    var i := 0;
    while i < |args|
      invariant 0 <= i <= |args| && Valid(acc) && acc.sign != Zero
      invariant forall j :: 0 <= j < i ==> IsExact(args[j])
      invariant SignedValue(acc) == SignedValue(x) + Sum(args, i)
    {
      var o := args[i];
      if o.Inexact? {
        return Promote(acc, args[i..]);
      } else if o.NotANumber? {
        return TypeError(o);
      } else if o.Fixnum? {
        acc := BignumAddSI(acc, o.v);
      } else {
        acc := BignumAdd(acc, o.b);
      }
      i := i + 1;
    }
    r := Exact(NormalizeBignum(acc));
  }

  /** Scm_BignumSubN: x minus every argument, left to right. */
  method BignumSubN(x: Bignum, args: seq<Operand>) returns (r: Outcome)
    requires Valid(x) && x.sign != Zero
    requires forall i :: 0 <= i < |args| ==> OperandOk(args[i])
    ensures r.Exact? <==> ExactPrefix(args) == |args|
    ensures r.Exact? ==> NumValue(r.n) == SignedValue(x) - Sum(args, |args|)
    ensures r.Promote? <==> ExactPrefix(args) < |args| && args[ExactPrefix(args)].Inexact?
    ensures r.Promote? ==> Valid(r.acc) && r.rest == args[ExactPrefix(args)..]
    ensures r.Promote? ==> SignedValue(r.acc) == SignedValue(x) - Sum(args, ExactPrefix(args))
    ensures r.TypeError? ==> r.culprit == args[ExactPrefix(args)] && r.culprit.NotANumber?
  {
    var acc := x;
    var i := 0;
    while i < |args|
      invariant 0 <= i <= |args| && Valid(acc) && acc.sign != Zero
      invariant forall j :: 0 <= j < i ==> IsExact(args[j])
      invariant SignedValue(acc) == SignedValue(x) - Sum(args, i)
    {
      var o := args[i];
      if o.Inexact? {
        return Promote(acc, args[i..]);
      } else if o.NotANumber? {
        return TypeError(o);
      } else if o.Fixnum? {
        acc := BignumAddSI(acc, -o.v);
      } else {
        acc := BignumSub(acc, o.b);
      }
      i := i + 1;
    }
    r := Exact(NormalizeBignum(acc));
  }
}

=== FILE: magnitude.dfy ===
/**
 * Magnitudes: little-endian sequences of words and the value they denote,
 * Val(ws) = sum of ws[i] * BASE^i. Every contract of the engine is stated
 * against Val.
 */
module Magnitude {
  import opened Words

  predicate WordsOk(ws: seq<nat>) {
    forall i :: 0 <= i < |ws| ==> IsWord(ws[i])
  }

  /** The value of a magnitude, least significant word first. */
  function Val(ws: seq<nat>): nat {
    if |ws| == 0 then 0 else ws[0] + BASE * Val(ws[1..])
  }

  /** Word i of a magnitude, reading the words above its size as zero. */
  function Word(ws: seq<nat>, i: nat): nat {
    if i < |ws| then ws[i] else 0
  }

  /** The words of ws below position i (all of ws when i is past its end). */
  function Low(ws: seq<nat>, i: nat): seq<nat> {
    if i <= |ws| then ws[..i] else ws
  }

  function Zeros(n: nat): (z: seq<nat>)
    ensures |z| == n && forall i :: 0 <= i < n ==> z[i] == 0
  {
    seq(n, _ => 0)
  }

  /** Whether every word from position `from` up is zero. */
  predicate ZeroFrom(ws: seq<nat>, from: nat) {
    forall i :: from <= i < |ws| ==> ws[i] == 0
  }

  /** A magnitude of n words is below BASE^n. */
  lemma {:induction false} ValBound(ws: seq<nat>)
    requires WordsOk(ws)
    ensures Val(ws) < WordPow(|ws|)
  {
    if |ws| > 0 {
      ValBound(ws[1..]);
    }
  }

  /** Value of a concatenation: the upper part is weighted by BASE^|a|. */
  lemma {:induction false} ValConcat(a: seq<nat>, b: seq<nat>)
    ensures Val(a + b) == Val(a) + WordPow(|a|) * Val(b)
  {
    if |a| == 0 {
      assert a + b == b;
    } else {
      assert (a + b)[1..] == a[1..] + b;
      ValConcat(a[1..], b);
      calc {
        Val(a + b);
        a[0] + BASE * Val(a[1..] + b);
        a[0] + BASE * (Val(a[1..]) + WordPow(|a| - 1) * Val(b));
        a[0] + BASE * Val(a[1..]) + (BASE * WordPow(|a| - 1)) * Val(b);
      }
    }
  }

  /** Appending one word adds it at weight BASE^|ws|. */
  lemma ValSnoc(ws: seq<nat>, w: nat)
    ensures Val(ws + [w]) == Val(ws) + w * WordPow(|ws|)
  {
    ValConcat(ws, [w]);
    ValSingleton(w);
    ScaleEqual(WordPow(|ws|), Val([w]), w);
  }

  lemma ValSingleton(w: nat)
    ensures Val([w]) == w
  {
    assert Val([w]) == w + BASE * Val([]);
  }

  /** Equal factors give equal products. */
  lemma ScaleEqual(p: int, a: int, b: int)
    requires a == b
    ensures p * a == b * p
  {
  }

  lemma {:induction false} ValZeros(n: nat)
    ensures Val(Zeros(n)) == 0
  {
    if n > 0 {
      assert Zeros(n)[1..] == Zeros(n - 1);
      ValZeros(n - 1);
    }
  }

  /** Zero words above position n do not contribute to the value. */
  lemma ValDropZeroTop(ws: seq<nat>, n: nat)
    requires n <= |ws| && ZeroFrom(ws, n)
    ensures Val(ws[..n]) == Val(ws)
  {
    assert ws[n..] == Zeros(|ws| - n);
    assert ws == ws[..n] + ws[n..];
    ValConcat(ws[..n], ws[n..]);
    ValZeros(|ws| - n);
  }

  /** A magnitude whose words above the first are zero is its first word. */
  lemma ValSingle(ws: seq<nat>)
    requires |ws| >= 1 && ZeroFrom(ws, 1)
    ensures Val(ws) == ws[0]
  {
    ValDropZeroTop(ws, 1);
    assert Val(ws[..1]) == ws[0] + BASE * Val(ws[..1][1..]);
  }

  /** Extending the prefix of ws by one position adds word i at weight BASE^i. */
  lemma ValLowStep(ws: seq<nat>, i: nat)
    ensures Val(Low(ws, i + 1)) == Val(Low(ws, i)) + Word(ws, i) * WordPow(i)
  {
    if i < |ws| {
      assert Low(ws, i + 1) == Low(ws, i) + [ws[i]];
      ValSnoc(Low(ws, i), ws[i]);
    } else {
      assert Low(ws, i) == ws;
    }
  }

  /** The value is below (top + 1) * BASE^(n-1), where top is the last word. */
  lemma ValTopBound(ws: seq<nat>)
    requires |ws| >= 1 && WordsOk(ws)
    ensures Val(ws) < (ws[|ws| - 1] + 1) * WordPow(|ws| - 1)
  {
    var n := |ws|;
    assert ws == ws[..n - 1] + [ws[n - 1]];
    ValSnoc(ws[..n - 1], ws[n - 1]);
    ValBound(ws[..n - 1]);
    assert (ws[n - 1] + 1) * WordPow(n - 1) == ws[n - 1] * WordPow(n - 1) + WordPow(n - 1);
  }

  /** A magnitude with a nonzero word at position n-1 is at least BASE^(n-1). */
  lemma ValTopLower(ws: seq<nat>)
    requires |ws| >= 1 && ws[|ws| - 1] != 0
    ensures Val(ws) >= WordPow(|ws| - 1)
  {
    var n := |ws|;
    assert ws == ws[..n - 1] + [ws[n - 1]];
    ValSnoc(ws[..n - 1], ws[n - 1]);
    MulMonotone(1, ws[n - 1], WordPow(n - 1));
  }

  /**
   * The remainder left after a carry chain: a value v below M that differs
   * from s by a multiple c of M is s mod M.
   */
  lemma ModOfCarry(v: int, c: int, m: int, s: int)
    requires 0 <= v < m && v + c * m == s
    ensures v == s % m
  {
    var q := s / m;
    assert s == q * m + s % m;
    assert (c - q) * m == s % m - v;
    if c > q {
      MulMonotone(1, c - q, m);
    } else if c < q {
      MulMonotone(1, q - c, m);
    }
  }
}

=== FILE: shift.dfy ===
/**
 * The shift engine: bignum_rshift and bignum_lshift as their comments
 * describe them, br = bx >> amount and br = bx << amount, with a word shift
 * by amount / WORD_BITS and a bit shift by amount % WORD_BITS carried
 * between adjacent words. The right shift walks the words upward and the
 * left shift downward, so that either may run in place, and a bit shift of
 * zero copies the words instead of shifting by a full word.
 */
module Shifts {
  import opened Words
  import opened Magnitude
  import opened Bignums

  /** `w >> n`, one bit at a time. */
  function ShiftDown(w: nat, n: nat): nat {
    if n == 0 then w else ShiftDown(w / 2, n - 1)
  }

  /** `w << n` on a word: the bits moved past the top are lost. */
  function ShiftUp(w: nat, n: nat): nat {
    (w * Pow2(n)) % BASE
  }

  /** Quotient and remainder are determined by n == q * d + r with 0 <= r < d. */
  lemma DivModUnique(n: int, d: int, q: int, r: int)
    requires d > 0 && 0 <= r < d && n == q * d + r
    ensures n / d == q && n % d == r
  {
    ModOfCarry(r, q, d, n);
    assert n == (n / d) * d + n % d;
  }

  /** Scaling by p moves a division by q to a division by p * q. */
  lemma ScaledDivMod(a: nat, p: nat, q: nat)
    requires p >= 1 && q >= 1
    ensures (a * p) / (p * q) == a / q
    ensures (a * p) % (p * q) == (a % q) * p
  {
    var m := a % q;
    assert a == (a / q) * q + m;
    assert a * p == (a / q) * (p * q) + m * p;
    MulMonotone(m, q - 1, p);
    assert (q - 1) * p == p * q - p;
    DivModUnique(a * p, p * q, a / q, m * p);
  }

  /** Dividing by d == a * b is dividing by a, then by b. */
  lemma DivDiv(n: nat, a: nat, b: nat, d: nat)
    requires a >= 1 && b >= 1 && d == a * b
    ensures n / d == (n / a) / b
  {
    var q1, r1 := n / a, n % a;
    var q2, r2 := q1 / b, q1 % b;
    assert n == q1 * a + r1;
    assert q1 == q2 * b + r2;
    assert n == q2 * (a * b) + (a * r2 + r1);
    MulMonotone(r2, b - 1, a);
    assert (b - 1) * a == a * b - a;
    DivModUnique(n, a * b, q2, a * r2 + r1);
  }

  /** Multiplying by p and dividing by p gives v back. */
  lemma MulDivCancel(v: nat, p: nat)
    requires p >= 1
    ensures (v * p) / p == v
  {
    DivModUnique(v * p, p, v, 0);
  }

  /** `w >> n` divides by 2^n. */
  lemma {:induction false} ShiftDownIsDiv(w: nat, n: nat)
    ensures ShiftDown(w, n) == w / Pow2(n)
  {
    if n > 0 {
      ShiftDownIsDiv(w / 2, n - 1);
      DivDiv(w, 2, Pow2(n - 1), Pow2(n));
    }
  }

  /** A multiple of p added to a does not change a / p beyond the multiple. */
  lemma DivAddMultiple(a: nat, p: nat, k: nat)
    requires p >= 1
    ensures (a + p * k) / p == a / p + k
    ensures (a + p * k) % p == a % p
  {
    assert a == (a / p) * p + a % p;
    DivModUnique(a + p * k, p, a / p + k, a % p);
  }

  lemma DivBound(a: nat, p: nat, q: nat)
    requires p >= 1 && q >= 1 && a < p * q
    ensures a / p < q
  {
    assert a == (a / p) * p + a % p;
    if a / p >= q {
      MulMonotone(q, a / p, p);
    }
  }

  /** The bit split of a word: 2^b * 2^(W-b) == BASE. */
  lemma SplitBase(b: nat)
    requires b <= WORD_BITS
    ensures Pow2(b) * Pow2(WORD_BITS - b) == BASE
  {
    Pow2Add(b, WORD_BITS - b);
    Pow2Word();
  }

  /**
   * The words of ws shifted down by 0 < b < WORD_BITS bits: word j keeps the
   * high bits of ws[j] and takes the low b bits of ws[j+1] on top.
   */
  function BitsDown(ws: seq<nat>, b: nat): (r: seq<nat>)
    requires 0 < b < WORD_BITS
    ensures |r| == |ws|
  {
    if |ws| == 0 then []
    else [ShiftDown(ws[0], b) + ShiftUp(Word(ws, 1), WORD_BITS - b)] + BitsDown(ws[1..], b)
  }

  lemma {:induction false} BitsDownAt(ws: seq<nat>, b: nat, j: nat)
    requires 0 < b < WORD_BITS && j < |ws|
    ensures BitsDown(ws, b)[j] == ShiftDown(ws[j], b) + ShiftUp(Word(ws, j + 1), WORD_BITS - b)
  {
    if j > 0 {
      BitsDownAt(ws[1..], b, j - 1);
    }
  }

  /**
   * One word of a right shift by a bit count whose weight is p, with
   * p * q == m the word base: the word a below the rest v takes the low bits
   * of v (the low bits of its first word `next`) on top.
   */
  lemma DownStep(a: nat, next: nat, v: nat, p: nat, q: nat, m: nat)
    requires p >= 1 && q >= 1 && m == p * q && a < m && v % p == next % p
    ensures a / p + (next * q) % m < m
    ensures (a + m * v) / p == a / p + (next * q) % m + m * (v / p)
  {
    ScaledDivMod(next, q, p);
    assert q * p == m;
    DivAddMultiple(a, p, q * v);
    assert p * (q * v) == m * v;
    assert v == (v / p) * p + v % p;
    assert q * v == m * (v / p) + (next % p) * q;
    DivBound(a, p, q);
    MulMonotone(next % p, p - 1, q);
    assert (p - 1) * q == m - q;
  }

  /** The low bits of a magnitude, below the word size, are those of its first word. */
  lemma LowBitsOfVal(ws: seq<nat>, p: nat, q: nat)
    requires p >= 1 && q >= 1 && p * q == BASE
    ensures Val(ws) % p == Word(ws, 0) % p
  {
    if |ws| > 0 {
      var v := Val(ws[1..]);
      assert Val(ws) == ws[0] + BASE * v;
      MulAssoc(p, q, v, BASE);
      DivAddMultiple(ws[0], p, q * v);
    }
  }

  /** p * (q * v) == m * v when m == p * q. */
  lemma MulAssoc(p: int, q: int, v: int, m: int)
    requires m == p * q
    ensures p * (q * v) == m * v
  {
  }

  /** Shifting the words down by b bits divides the value by 2^b. */
  lemma {:induction false} BitsDownValue(ws: seq<nat>, b: nat)
    requires WordsOk(ws) && 0 < b < WORD_BITS
    ensures WordsOk(BitsDown(ws, b))
    ensures Val(BitsDown(ws, b)) == Val(ws) / Pow2(b)
  {
    var p, q := Pow2(b), Pow2(WORD_BITS - b);
    if |ws| == 0 {
      DivModUnique(0, p, 0, 0);
    } else {
      var rest := ws[1..];
      var a, next, v := ws[0], Word(ws, 1), Val(rest);
      var tail := BitsDown(rest, b);
      BitsDownValue(rest, b);
      var w0 := a / p + (next * q) % BASE;
      assert w0 < BASE && Val(ws) / p == w0 + BASE * (v / p) by {
        SplitBase(b);
        assert v % p == next % p by {
          LowBitsOfVal(rest, p, q);
          assert Word(rest, 0) == next;
        }
        DownStep(a, next, v, p, q, BASE);
        assert Val(ws) == a + BASE * v;
      }
      assert BitsDown(ws, b) == [w0] + tail by {
        ShiftDownIsDiv(a, b);
      }
      assert Val([w0] + tail) == w0 + BASE * Val(tail) by {
        assert ([w0] + tail)[1..] == tail;
      }
    }
  }

  /**
   * The words of ws shifted up by 0 < b < WORD_BITS bits, with cin < 2^b
   * entering at the bottom and one more word on top for the bits shifted out.
   */
  function BitsUp(ws: seq<nat>, b: nat, cin: nat): (r: seq<nat>)
    requires 0 < b < WORD_BITS
    ensures |r| == |ws| + 1
  {
    if |ws| == 0 then [cin]
    else [ShiftUp(ws[0], b) + cin] + BitsUp(ws[1..], b, ShiftDown(ws[0], WORD_BITS - b))
  }

  lemma {:induction false} BitsUpAt(ws: seq<nat>, b: nat, cin: nat, j: nat)
    requires 0 < b < WORD_BITS && j <= |ws|
    ensures BitsUp(ws, b, cin)[j]
         == ShiftUp(Word(ws, j), b) + (if j == 0 then cin else ShiftDown(ws[j - 1], WORD_BITS - b))
  {
    if j == 0 {
      if |ws| == 0 {
        assert ShiftUp(0, b) == 0;
      }
    } else {
      BitsUpAt(ws[1..], b, ShiftDown(ws[0], WORD_BITS - b), j - 1);
      if j - 1 > 0 {
        assert ws[1..][j - 2] == ws[j - 1];
      }
    }
  }

  /**
   * One word of a left shift by a bit count whose weight is p, with
   * p * q == m the word base: the word a keeps its low bits, moved up, under
   * the bits cin from below, and hands its high bits a / q to the next word.
   */
  lemma UpStep(a: nat, cin: nat, v: nat, p: nat, q: nat, m: nat)
    requires p >= 1 && q >= 1 && m == p * q && a < m && cin < p
    ensures a / q < p
    ensures (a * p) % m + cin < m
    ensures (a * p) % m + cin + m * (v * p + a / q) == (a + m * v) * p + cin
  {
    var d, r := a / q, a % q;
    DivBound(a, q, p);
    ScaledDivMod(a, p, q);
    MulMonotone(r, q - 1, p);
    assert (q - 1) * p == m - p;
    assert a * p == d * m + r * p by {
      assert a == d * q + r;
      assert a * p == (d * q) * p + r * p;
      assert (d * q) * p == d * m;
    }
    assert m * (v * p + d) == (m * v) * p + d * m;
    assert (a + m * v) * p == a * p + (m * v) * p;
  }

  /** Shifting the words up by b bits multiplies the value by 2^b. */
  lemma {:induction false} BitsUpValue(ws: seq<nat>, b: nat, cin: nat)
    requires WordsOk(ws) && 0 < b < WORD_BITS && cin < Pow2(b)
    ensures WordsOk(BitsUp(ws, b, cin))
    ensures Val(BitsUp(ws, b, cin)) == Val(ws) * Pow2(b) + cin
  {
    var p, q := Pow2(b), Pow2(WORD_BITS - b);
    SplitBase(b);
    if |ws| == 0 {
      assert Val([cin]) == cin + BASE * Val([]);
    } else {
      var rest := ws[1..];
      var d := ShiftDown(ws[0], WORD_BITS - b);
      ShiftDownIsDiv(ws[0], WORD_BITS - b);
      UpStep(ws[0], cin, Val(rest), p, q, BASE);
      BitsUpValue(rest, b, d);
      var w0 := ShiftUp(ws[0], b) + cin;
      assert w0 < BASE;
      assert BitsUp(ws, b, cin) == [w0] + BitsUp(rest, b, d);
      assert Val(BitsUp(ws, b, cin)) == w0 + BASE * Val(BitsUp(rest, b, d));
      assert Val(ws) == ws[0] + BASE * Val(rest);
    }
  }

  /** The weight of amount bits: BASE^(amount / W) * 2^(amount % W). */
  lemma Pow2Amount(amount: nat)
    ensures Pow2(amount) == WordPow(amount / WORD_BITS) * Pow2(amount % WORD_BITS)
  {
    var k, b := amount / WORD_BITS, amount % WORD_BITS;
    assert amount == WORD_BITS * k + b;
    Pow2Add(WORD_BITS * k, b);
    WordPowBits(k);
  }

  /** Dropping the k low words divides the value by BASE^k. */
  lemma ValDropLow(ws: seq<nat>, k: nat)
    requires WordsOk(ws) && k <= |ws|
    ensures Val(ws[k..]) == Val(ws) / WordPow(k)
  {
    var lo, hi := ws[..k], ws[k..];
    assert ws == lo + hi;
    assert |lo| == k;
    ValConcat(lo, hi);
    assert WordsOk(lo);
    ValBound(lo);
    ScaleEqual(WordPow(k), Val(hi), Val(hi));
    DivModUnique(Val(ws), WordPow(k), Val(hi), Val(lo));
  }

  /** Putting k zero words underneath multiplies the value by BASE^k. */
  lemma ValZerosBelow(k: nat, ws: seq<nat>)
    ensures Val(Zeros(k) + ws) == WordPow(k) * Val(ws)
  {
    ValConcat(Zeros(k), ws);
    ValZeros(k);
  }

  /** The words of ws moved down by b < WORD_BITS bits; a zero bit count moves nothing. */
  function DownWords(ws: seq<nat>, b: nat): (r: seq<nat>)
    requires b < WORD_BITS
    ensures |r| == |ws|
  {
    if b == 0 then ws else BitsDown(ws, b)
  }

  /** The words of ws moved up by b < WORD_BITS bits, with a top word when b is not zero. */
  function UpWords(ws: seq<nat>, b: nat): (r: seq<nat>)
    requires b < WORD_BITS
    ensures |r| == if b == 0 then |ws| else |ws| + 1
  {
    if b == 0 then ws else BitsUp(ws, b, 0)
  }

  /** The result words of bx >> amount, per the comment of bignum_rshift. */
  function ShiftedRight(ws: seq<nat>, amount: nat): seq<nat> {
    var nwords, nbits := amount / WORD_BITS, amount % WORD_BITS;
    if |ws| <= nwords then [] else DownWords(ws[nwords..], nbits)
  }

  /** The result words of bx << amount, per the comment of bignum_lshift. */
  function ShiftedLeft(ws: seq<nat>, amount: nat): seq<nat> {
    var nwords, nbits := amount / WORD_BITS, amount % WORD_BITS;
    Zeros(nwords) + UpWords(ws, nbits)
  }

  lemma DownWordsValue(ws: seq<nat>, b: nat)
    requires WordsOk(ws) && b < WORD_BITS
    ensures WordsOk(DownWords(ws, b))
    ensures Val(DownWords(ws, b)) == Val(ws) / Pow2(b)
  {
    if b > 0 {
      BitsDownValue(ws, b);
    }
  }

  lemma UpWordsValue(ws: seq<nat>, b: nat)
    requires WordsOk(ws) && b < WORD_BITS
    ensures WordsOk(UpWords(ws, b))
    ensures Val(UpWords(ws, b)) == Val(ws) * Pow2(b)
  {
    if b > 0 {
      BitsUpValue(ws, b, 0);
    }
  }

  /** bx >> amount denotes Val(bx) / 2^amount. */
  lemma ShiftedRightValue(ws: seq<nat>, amount: nat)
    requires WordsOk(ws)
    ensures WordsOk(ShiftedRight(ws, amount))
    ensures Val(ShiftedRight(ws, amount)) == Val(ws) / Pow2(amount)
  {
    if |ws| <= amount / WORD_BITS {
      ShiftedAway(ws, amount);
    } else {
      ShiftedKept(ws, amount);
    }
  }

  /** When every word is shifted out, the quotient is zero. */
  lemma ShiftedAway(ws: seq<nat>, amount: nat)
    requires WordsOk(ws) && |ws| <= amount / WORD_BITS
    ensures Val(ws) / Pow2(amount) == 0
  {
    var nwords := amount / WORD_BITS;
    assert Val(ws) < WordPow(nwords) by {
      ValBound(ws);
      WordPowMonotone(|ws|, nwords);
    }
    assert WordPow(nwords) <= Pow2(amount) by {
      WordPowBits(nwords);
      Pow2Monotone(WORD_BITS * nwords, amount);
    }
    DivModUnique(Val(ws), Pow2(amount), 0, Val(ws));
  }

  /** Dropping the low words, then the low bits of what is left, divides by 2^amount. */
  lemma ShiftedKept(ws: seq<nat>, amount: nat)
    requires WordsOk(ws) && |ws| > amount / WORD_BITS
    ensures WordsOk(ShiftedRight(ws, amount))
    ensures Val(ShiftedRight(ws, amount)) == Val(ws) / Pow2(amount)
  {
    var nwords, nbits := amount / WORD_BITS, amount % WORD_BITS;
    var k, p, d := WordPow(nwords), Pow2(nbits), Pow2(amount);
    var part := ws[nwords..];
    assert ShiftedRight(ws, amount) == DownWords(part, nbits);
    DownWordsValue(part, nbits);
    assert Val(part) == Val(ws) / k by {
      ValDropLow(ws, nwords);
    }
    assert (Val(ws) / k) / p == Val(ws) / d by {
      Pow2Amount(amount);
      DivDiv(Val(ws), k, p, d);
    }
  }

  /** bx << amount denotes Val(bx) * 2^amount. */
  lemma ShiftedLeftValue(ws: seq<nat>, amount: nat)
    requires WordsOk(ws)
    ensures WordsOk(ShiftedLeft(ws, amount))
    ensures Val(ShiftedLeft(ws, amount)) == Val(ws) * Pow2(amount)
  {
    var nwords, nbits := amount / WORD_BITS, amount % WORD_BITS;
    Pow2Amount(amount);
    assert WordsOk(Zeros(nwords));
    var up := UpWords(ws, nbits);
    UpWordsValue(ws, nbits);
    ValZerosBelow(nwords, up);
    Rearrange(WordPow(nwords), Val(ws), Pow2(nbits));
  }

  lemma Rearrange(k: int, v: int, p: int)
    ensures k * (v * p) == v * (k * p)
  {
  }

  /** Shifting up then down by the same amount gives the value back. */
  lemma ShiftRoundTrip(ws: seq<nat>, amount: nat)
    requires WordsOk(ws)
    ensures Val(ShiftedRight(ShiftedLeft(ws, amount), amount)) == Val(ws)
  {
    ShiftedLeftValue(ws, amount);
    ShiftedRightValue(ShiftedLeft(ws, amount), amount);
    MulDivCancel(Val(ws), Pow2(amount));
  }

  /**
   * The word loop of bignum_rshift, run from the low word up so that it may
   * work in place: word j takes the high bits of src[j] and the low bits of
   * src[j+1], or is src[j] itself when the bit count is zero.
   */
  method ShiftWordsDown(src: seq<nat>, b: nat) returns (ws: seq<nat>)
    requires b < WORD_BITS
    ensures ws == DownWords(src, b)
  {
    ghost var spec := DownWords(src, b);
    ws := [];
    var i := 0;
    while i < |src|
      invariant i <= |src|
      invariant ws == spec[..i]
    {
      var w: nat;
      if b == 0 {
        w := src[i];
      } else {
        w := ShiftDown(src[i], b) + ShiftUp(Word(src, i + 1), WORD_BITS - b);
        BitsDownAt(src, b, i);
      }
      assert spec[..i + 1] == spec[..i] + [w];
      ws := ws + [w];
      i := i + 1;
    }
  }

  /**
   * The word loop of bignum_lshift, run from the top word down so that it
   * may work in place: word j takes the low bits of src[j] moved up and the
   * high bits of src[j-1], or is src[j] itself when the bit count is zero.
   */
  method ShiftWordsUp(src: seq<nat>, b: nat) returns (ws: seq<nat>)
    requires b < WORD_BITS
    ensures ws == UpWords(src, b)
  {
    ghost var spec := UpWords(src, b);
    var top := if b == 0 then |src| else |src| + 1;
    ws := [];
    var i := top;
    while i > 0
      invariant 0 <= i <= top && |spec| == top
      invariant ws == spec[i..]
    {
      i := i - 1;
      var w: nat;
      if b == 0 {
        w := src[i];
      } else {
        w := ShiftUp(Word(src, i), b) + (if i == 0 then 0 else ShiftDown(src[i - 1], WORD_BITS - b));
        BitsUpAt(src, b, 0, i);
      }
      assert spec[i..] == [w] + spec[i + 1..];
      ws := [w] + ws;
    }
  }

  /**
   * bignum_rshift: br = bx >> amount, not normalized, the sign copied.
   * When amount / WORD_BITS reaches the size of bx the result has size zero.
   */
  method RShift(x: Bignum, amount: nat) returns (r: Bignum)
    requires WordsOk(x.words)
    ensures r.sign == x.sign
    ensures |r.words| == if |x.words| <= amount / WORD_BITS then 0 else |x.words| - amount / WORD_BITS
    ensures r.words == ShiftedRight(x.words, amount)
    ensures WordsOk(r.words)
    ensures Val(r.words) == Val(x.words) / Pow2(amount)
  {
    ShiftedRightValue(x.words, amount);
    var nwords, nbits := amount / WORD_BITS, amount % WORD_BITS;
    if |x.words| <= nwords {
      r := Bignum(x.sign, []);
    } else {
      var ws := ShiftWordsDown(x.words[nwords..], nbits);
      r := Bignum(x.sign, ws);
    }
  }

  /**
   * bignum_lshift: br = bx << amount, not normalized, the sign copied. A
   * nonzero bit shift adds a top word for the bits shifted out, and the
   * amount / WORD_BITS low words are zero.
   */
  method LShift(x: Bignum, amount: nat) returns (r: Bignum)
    requires WordsOk(x.words)
    ensures r.sign == x.sign
    ensures |r.words| == |x.words| + amount / WORD_BITS + (if amount % WORD_BITS == 0 then 0 else 1)
    ensures r.words == ShiftedLeft(x.words, amount)
    ensures WordsOk(r.words)
    ensures Val(r.words) == Val(x.words) * Pow2(amount)
  {
    ShiftedLeftValue(x.words, amount);
    var nwords, nbits := amount / WORD_BITS, amount % WORD_BITS;
    var ws := ShiftWordsUp(x.words, nbits);
    r := Bignum(x.sign, Zeros(nwords) + ws);
  }

  /**
   * The index read on pass k of the right-shift loop as the source writes
   * it: the loop starts at nwords and steps downward, under the guard
   * "index below the size".
   */
  function RShiftIndexAsWritten(nwords: nat, k: nat): int {
    nwords - k
  }

  /**
   * The guard of that loop never fails, so pass nwords + 1 reads the word
   * at index -1, below the buffer.
   */
  lemma RShiftAsWrittenLeavesBuffer(size: nat, nwords: nat)
    requires nwords < size
    ensures forall k: nat :: RShiftIndexAsWritten(nwords, k) < size
    ensures RShiftIndexAsWritten(nwords, nwords + 1) == -1
  {
  }

  /**
   * The index read on pass k of the left-shift loop as the source writes it:
   * the loop starts at the top word and steps upward, under the guard
   * "index at least zero".
   */
  function LShiftIndexAsWritten(size: nat, k: nat): int {
    size - 1 + k
  }

  /**
   * The guard of that loop never fails on a nonempty operand, so pass 1
   * reads the word at index size, above the buffer.
   */
  lemma LShiftAsWrittenLeavesBuffer(size: nat)
    requires size >= 1
    ensures forall k: nat :: LShiftIndexAsWritten(size, k) >= 0
    ensures LShiftIndexAsWritten(size, 1) == size
  {
  }

  /** The result size the source's left shift records: no word for the bits shifted out. */
  function LShiftSizeAsWritten(size: nat, amount: nat): nat {
    size + amount / WORD_BITS
  }

  /**
   * Shifting the one-word 2^63 left by one bit: no buffer of the size the
   * source records can hold the product 2^64.
   */
  lemma LShiftAsWrittenTooShort(out: seq<nat>)
    requires WordsOk(out) && |out| == LShiftSizeAsWritten(1, 1)
    ensures Val(out) < Val([0x8000_0000_0000_0000]) * Pow2(1)
  {
    ValBound(out);
    assert Val([0x8000_0000_0000_0000]) == 0x8000_0000_0000_0000 + BASE * Val([]);
  }
}

=== FILE: words.dfy ===
/**
 * Machine words and the per-word primitives of the bignum engine: the
 * platform constants, add-with-carry (UADD), subtract-with-borrow (USUB)
 * and the portable half-word multiply (UMUL).
 *
 * A word is an unsigned `long` of WORD_BITS = 64 bits, modelled as a `nat`
 * below BASE = 2^64. Every C operation on `u_long` wraps modulo BASE; the
 * model writes that wrap-around out with `% BASE`.
 */
module Words {

  /** Bits in an unsigned long (SIZEOF_LONG * 8 on an LP64 platform). */
  const WORD_BITS: nat := 64
  /** Half of WORD_BITS: the split point of UMUL. */
  const HALF_BITS: nat := 32
  /** 2^WORD_BITS: one more than the largest word. */
  const BASE: nat := 0x1_0000_0000_0000_0000
  /** 2^HALF_BITS. */
  const HALF_BASE: nat := 0x1_0000_0000
  /** The all-ones word, `(u_long)(-1L)`. */
  const SCM_ULONG_MAX: nat := 0xFFFF_FFFF_FFFF_FFFF

  /** Range of a signed `long`. */
  const LONG_MAX: int := 0x7FFF_FFFF_FFFF_FFFF
  const LONG_MIN: int := -0x8000_0000_0000_0000

  /** Bits in a C `int`. */
  const INT_BITS: nat := 32

  /** Range of the runtime's inline small integers (two tag bits on a 64-bit word). */
  const SMALL_INT_MAX: int := 0x1FFF_FFFF_FFFF_FFFF
  const SMALL_INT_MIN: int := -0x2000_0000_0000_0000

  /** A value of C type `long`. */
  type Long = v: int | LONG_MIN <= v <= LONG_MAX

  predicate IsWord(x: nat) {
    x < BASE
  }

  function Pow2(n: nat): (r: nat)
    ensures r >= 1
  {
    if n == 0 then 1 else 2 * Pow2(n - 1)
  }

  lemma {:induction false} Pow2Add(a: nat, b: nat)
    ensures Pow2(a + b) == Pow2(a) * Pow2(b)
  {
    if a > 0 {
      Pow2Add(a - 1, b);
    }
  }

  lemma {:induction false} Pow2Monotone(a: nat, b: nat)
    requires a <= b
    ensures Pow2(a) <= Pow2(b)
  {
    if a < b {
      Pow2Monotone(a, b - 1);
    }
  }

  lemma Pow2Byte()
    ensures Pow2(8) == 256
  {
  }

  /** 2^WORD_BITS is BASE and 2^HALF_BITS is HALF_BASE. */
  lemma Pow2Word()
    ensures Pow2(HALF_BITS) == HALF_BASE
    ensures Pow2(WORD_BITS) == BASE
  {
    Pow2Byte();
    Pow2Square(8, 0x100);
    Pow2Square(16, 0x1_0000);
    Pow2Square(32, HALF_BASE);
  }

  lemma Pow2Square(n: nat, v: nat)
    requires Pow2(n) == v
    ensures Pow2(n + n) == v * v
  {
    Pow2Add(n, n);
  }

  /** BASE^k, the weight of word k of a magnitude. */
  function WordPow(k: nat): (r: nat)
    ensures r >= 1
  {
    if k == 0 then 1 else BASE * WordPow(k - 1)
  }

  /** The weight of word k is 2^(WORD_BITS * k). */
  lemma {:induction false} WordPowBits(k: nat)
    ensures WordPow(k) == Pow2(WORD_BITS * k)
  {
    if k > 0 {
      WordPowBits(k - 1);
      Pow2Word();
      Pow2Add(WORD_BITS, WORD_BITS * (k - 1));
    }
  }

  lemma {:induction false} WordPowMonotone(a: nat, b: nat)
    requires a <= b
    ensures WordPow(a) <= WordPow(b)
  {
    if a < b {
      WordPowMonotone(a, b - 1);
    }
  }

  /** The result word and the outgoing carry (or borrow) bit of UADD / USUB. */
  datatype Step = Step(word: nat, carry: nat)

  /**
   * UADD(r, c, x, y): the word is x + y + c wrapped to W bits, and the carry
   * is recomputed from the wrapped word alone by comparing it with x.
   */
  function UAdd(x: nat, y: nat, c: nat): (s: Step)
    requires IsWord(x) && IsWord(y) && c <= 1
    ensures IsWord(s.word) && s.carry <= 1
    ensures s.word == (x + y + c) % BASE
    ensures s.carry == 1 <==> x + y + c >= BASE
    ensures s.word + s.carry * BASE == x + y + c
  {
    var r := (x + y + c) % BASE;
    Step(r, if r < x || (r == x && (y > 0 || c > 0)) then 1 else 0)
  }

  /**
   * USUB(r, c, x, y): the word is x - y - c wrapped to W bits, and the
   * borrow is recomputed from the wrapped word alone by comparing it with x.
   */
  function USub(x: nat, y: nat, c: nat): (s: Step)
    requires IsWord(x) && IsWord(y) && c <= 1
    ensures IsWord(s.word) && s.carry <= 1
    ensures s.word == (x - y - c) % BASE
    ensures s.carry == 1 <==> x < y + c
    ensures s.word - s.carry * BASE == x - y - c
  {
    var r: nat := (x - y - c) % BASE;
    Step(r, if r > x || (r == x && (y > 0 || c > 0)) then 1 else 0)
  }

  /** The high and low words of a double-width product. */
  datatype Product = Product(hi: nat, lo: nat)

  /** LO(word): the low half of a word. */
  function Lo(w: nat): nat {
    w % HALF_BASE
  }

  /** HI(word): the high half of a word, `(w >> HALF_BITS) & LOMASK`. */
  function Hi(w: nat): nat {
    (w / HALF_BASE) % HALF_BASE
  }

  /** A word is its high half times HALF_BASE plus its low half. */
  lemma HalfSplit(w: nat)
    requires IsWord(w)
    ensures Hi(w) < HALF_BASE && Lo(w) < HALF_BASE
    ensures w == Hi(w) * HALF_BASE + Lo(w)
  {
  }

  lemma {:induction false} MulMonotone(a: nat, b: nat, k: nat)
    requires a <= b
    ensures a * k <= b * k
  {
    if k > 0 {
      MulMonotone(a, b, k - 1);
      assert a * k == a * (k - 1) + a;
      assert b * k == b * (k - 1) + b;
    }
  }

  /** A product of two half-words is at most (HALF_BASE - 1)^2. */
  lemma HalfProduct(a: nat, b: nat)
    requires a < HALF_BASE && b < HALF_BASE
    ensures a * b <= 0xFFFF_FFFE_0000_0001
  {
    MulMonotone(a, HALF_BASE - 1, b);
    MulMonotone(b, HALF_BASE - 1, HALF_BASE - 1);
    assert b * (HALF_BASE - 1) == (HALF_BASE - 1) * b;
  }

  /** Schoolbook expansion of a product of two split words. */
  lemma SplitProduct(xh: nat, xl: nat, yh: nat, yl: nat)
    ensures (xh * HALF_BASE + xl) * (yh * HALF_BASE + yl)
         == (xh * yh) * BASE + (xl * yh + xh * yl) * HALF_BASE + xl * yl
  {
  }

  /** A wrapped sum of two words, and the comparison that detects the wrap. */
  lemma WrapAdd(a: nat, b: nat)
    requires IsWord(a) && IsWord(b)
    ensures (a + b) % BASE == if a + b >= BASE then a + b - BASE else a + b
    ensures (a + b) % BASE < a <==> a + b >= BASE
  {
  }

  /**
   * The high word of the recombination: hi0 plus the carry k out of the
   * middle sum at weight HALF_BASE, the high half of the middle sum, and the
   * carry c2 out of the low word. It fits a word, so none of the additions
   * that build it wraps.
   */
  lemma RecombineTotal(lo0: nat, t1: nat, t2: nat, hi0: nat, t3: nat, k: nat, lo: nat, c2: nat)
    requires lo0 <= 0xFFFF_FFFE_0000_0001 && t1 <= 0xFFFF_FFFE_0000_0001
    requires t2 <= 0xFFFF_FFFE_0000_0001 && hi0 <= 0xFFFF_FFFE_0000_0001
    requires IsWord(t3) && k <= 1 && t3 + k * BASE == t1 + t2
    requires IsWord(lo) && c2 <= 1 && lo + c2 * BASE == lo0 + Lo(t3) * HALF_BASE
    ensures hi0 + k * HALF_BASE + Hi(t3) + c2 < BASE
    ensures (hi0 + k * HALF_BASE + Hi(t3) + c2) * BASE + lo == hi0 * BASE + (t1 + t2) * HALF_BASE + lo0
  {
    HalfSplit(t3);
  }

  /**
   * The recombination half of UMUL: given the four half-word products
   * lo0 = xl*yl, t1 = xl*yh, t2 = xh*yl and hi0 = xh*yh, add the middle sum
   * into the double word (hi0, lo0), carrying out of the middle sum and out of
   * the low word.
   */
  function Recombine(lo0: nat, t1: nat, t2: nat, hi0: nat): (p: Product)
    requires lo0 <= 0xFFFF_FFFE_0000_0001 && t1 <= 0xFFFF_FFFE_0000_0001
    requires t2 <= 0xFFFF_FFFE_0000_0001 && hi0 <= 0xFFFF_FFFE_0000_0001
    ensures IsWord(p.hi) && IsWord(p.lo)
    ensures p.hi * BASE + p.lo == hi0 * BASE + (t1 + t2) * HALF_BASE + lo0
  {
    var t3 := (t1 + t2) % BASE;
    WrapAdd(t1, t2);
    var k := if t3 < t1 then 1 else 0;
    HalfSplit(t3);
    var t4 := (Lo(t3) * HALF_BASE) % BASE;
    assert t4 == Lo(t3) * HALF_BASE;
    var lo := (lo0 + t4) % BASE;
    WrapAdd(lo0, t4);
    var c2 := if lo < t4 then 1 else 0;
    RecombineTotal(lo0, t1, t2, hi0, t3, k, lo, c2);
    var hi1 := if t3 < t1 then (hi0 + HALF_BASE) % BASE else hi0;
    assert hi1 == hi0 + k * HALF_BASE;
    var hi2 := (hi1 + Hi(t3)) % BASE;
    assert hi2 == hi1 + Hi(t3);
    var hi := if lo < t4 then (hi2 + 1) % BASE else hi2;
    assert hi == hi2 + c2;
    Product(hi, lo)
  }

  /**
   * UMUL(hi, lo, x, y): the double-width product of two words computed from
   * four half-word products. Products of half-words cannot wrap, so only the
   * additions inside Recombine are reduced modulo BASE.
   */
  function UMul(x: nat, y: nat): (p: Product)
    requires IsWord(x) && IsWord(y)
    ensures IsWord(p.hi) && IsWord(p.lo)
    ensures p.hi * BASE + p.lo == x * y
  {
    var xl, xh, yl, yh := Lo(x), Hi(x), Lo(y), Hi(y);
    HalfSplit(x);
    HalfSplit(y);
    HalfProduct(xl, yl);
    HalfProduct(xl, yh);
    HalfProduct(xh, yl);
    HalfProduct(xh, yh);
    SplitProduct(xh, xl, yh, yl);
    Recombine(xl * yl, xl * yh, xh * yl, xh * yh)
  }
}
